=== FILE: README.md ===
# uvi core, modelled in Dafny

A model of three parts of the uvi editor, a small vi-style editor.

- **Command interpreter** (`command.c`). It covers:
  - `command_run`, which dispatches an ex command (`a i c d p g w q e !`, `set`, `get`) after its address;
  - `command_readlines`, the line collector that feeds the insertion commands;
  - `command_e` and `command_readfile`, which replace the buffer;
  - `parse_setget`, the settings sub-parser.

  The buffer is a `seq<string>`. Everything the interpreter consults outside the buffer is an input:
  - the address parser's answer (`Command.Parsed`);
  - the line source (`seq<Collector.Read>`);
  - the result of a write and of a load;
  - the table of settings.

  Messages become a list of `Command.Report` values.
- **Curses cursor and viewport engine** (`gui/gui.c`). It covers:
  - the column mapping of `gui_coord_to_scr`;
  - `gui_move`, `gui_inc`, `gui_dec` and `gui_scroll` over `(pos_y, pos_x, pos_top, pos_left)`;
  - the key push-back stack: `gui_ungetch`, `gui_queue`, `gui_peekunget`, `gui_peekch` and the stack side of `gui_getch`;
  - the editing rules of `gui_getstr` as a pure function over a key sequence.

  `LINES`, `COLS`, the tab stop, `showtabs` and `SCROLL_OFF` are parameters (`Cursor.Term`).
- **ncurses pad viewport** (`ncurses/view.c`). It covers:
  - `view_move` and `view_scroll` over `(padx, pady, padtop)`;
  - the clipping helpers `clippadx`, `clippady` and `padyinrange`;
  - the tab-aware column functions `view_actualx` and `view_getactualx`.

  `MAX_Y` (= `LINES - 1`) and the tab stop are parameters.

The modules are:

| module | contents |
|---|---|
| `Basics` | `Option`, clamping, C character classes, the scroll kinds |
| `LineStore` | the buffer and the semantics assumed of `buffer_*` |
| `Collector` | the line collector |
| `SetGet` | the settings sub-parser |
| `Command` | the interpreter |
| `Cursor` | the curses cursor engine |
| `KeyInput` | the key stack |
| `LineEdit` | the `gui_getstr` editor |
| `PadView` | the ncurses pad viewport |

Assumed semantics of the parts whose bodies are not part of this model:
- `buffer_getindex(i)` exists exactly for `0 <= i < nlines`.
- Inserting after or before a missing line appends at the tail.
- `buffer_remove_range` takes a 1-based inclusive range.
- `newemptybuffer` is one empty line, unmodified, writable, unnamed, with a final newline.
- A loaded buffer has at least one line (`Command.LoadContract`).
- A written address lies inside the buffer (`Command.ParserContract`).
- `CTRL_AND(c)` is `c & 0x1f`. So ^U=21, ^W=23, ^H=8, ^?=31, ^[=27, ^N=14 and ^C=3.
- `char` is signed 8-bit (`KeyInput.SignedChar`).
- Each character of a line stands for one byte of the C string (value below 256); multi-byte encodings are not modelled, so `isprint`, `strlen` and the column walks step one character at a time.
- `buffer_read` returns a buffer that is unmodified and named after the file it read.

## Model

| member | source | states |
|---|---|---|
| `Collector.CutAtNewline` | command.c:42-48 | the stored line is the window text before its first newline, and holds no newline |
| `Collector.Overflow` | command.c:50-69 | the joined text of an overlong line holds no newline, and at least one read is used when any is left |
| `Collector.Gather` | command.c:31-74 | no collected line contains a newline |
| `Collector.ReadLines` | command.c:24-83 | the list is never empty and has no newlines; immediate end of input gives exactly one empty line (corrected collector) |
| `Collector.ReadLinesAsWritten` | command.c:24-83 | the same guarantees for the collector as written |
| `Collector.OneLinePerWindow` | command.c:37-48 | when every window holds a newline, each becomes one line, cut at the newline, in input order, up to and including a "last" read |
| `Collector.LastEndsCollection` | command.c:37-48 | a "last" read adds its line and nothing after it is read |
| `Collector.LongLineKept` | command.c:49-71 | corrected: a line spread over two windows is kept as one joined line |
| `Collector.LongLineDropped` | command.c:49-71 | as written: that line disappears from the result |
| `Collector.LongLineExample` | command.c:49-71 | "ab", "c\n", end: as written gives [""]; corrected gives ["abc"] |
| `SetGet.WordEnd` | command.c:494-497 | the word run from index 2 is all letters and ends at a non-letter or the end |
| `SetGet.Parse` | command.c:480-558 | bare `get` and only it dumps all; text not starting with a space is malformed; the answer is "unknown variable" exactly when a named setting (the first word, less any leading `no`) is missing from the table; every other named setting is in the table, a flag being set is a flag setting, and an answer asking for a number names a number setting; `no` turns the flag off |
| `SetGet.FlagTextParses` | command.c:483-508 | round trip: " name" and " noname" parse back to setting that flag on and off |
| `SetGet.WordFound` | command.c:494-497 | in " word rest" the scan stops right after the word when the rest is empty or starts with a non-letter |
| `SetGet.GetParses` | command.c:504-531 | round trip: "get name" shows a known setting, and "get name value" shows the setting through a message whose arguments are missing |
| `SetGet.SetNumberParses` | command.c:518-525 | round trip: "set name value" hands the value of a known setting to the store |
| `SetGet.UnknownParses` | command.c:499-502 | a name missing from the table is reported unknown by set and get alike |
| `LineStore.EmptyBuffer` | command.c:440-446 | a new buffer is one empty line, unmodified, writable and unnamed |
| `LineStore.InsertAfter` | command.c:133-136 | the block is placed right after the anchor line, with everything else kept in order; without an anchor it is appended |
| `LineStore.InsertBefore` | command.c:137-138 | the block is placed right before the anchor line, with everything else kept in order; without an anchor it is appended |
| `LineStore.RemoveRange` | command.c:298 | n-(e-s+1) lines are left; lines before s are kept, and lines after e shift down contiguously |
| `LineStore.Remove` | command.c:309 | one line fewer; the lines around it are kept in order |
| `LineStore.InsertAfterThenRemove` | command.c:133-136 | removing a block just inserted after a line restores the lines |
| `LineStore.InsertBeforeThenRemove` | command.c:137-138 | removing a block just inserted before a line restores the lines |
| `Command.ReadFile` | command.c:396-438 | no name gives a fresh empty buffer. A missing file gives an empty named buffer. Any other read error gives a read-only empty named buffer. A loaded file keeps its lines and final-newline flag and is read-only if the loader or caller says so. The result is never modified |
| `Command.Reload` | command.c:382-392 | "unsaved" refusal on a modified buffer unless forced; otherwise the new buffer is loaded and the cursor is kept if in range, else set to the new last line |
| `Command.Edit` | command.c:361-394 | `e name` reports unsaved on a modified buffer and otherwise loads the named file; `e! name` loads it regardless; any other suffix is invalid; the cursor is left on a line of the new buffer |
| `Command.Splice` | command.c:128-140 | (corrected collector) the collected block sits right after (`a`) or before (`i`) the current line, the other lines are unchanged and in order, the length grows by the block size, and modified is set |
| `Command.InsertCmd` | command.c:122-143 | (corrected collector) read-only gives only an error; a range or trailing text is rejected; otherwise splice and mark modified |
| `Command.CursorAfterRangeDelete` | command.c:297-301 | the cursor moves to the new last line when index `start` is gone, is kept when both lines exist, and (corrected) always names a line |
| `Command.DeleteLines` | command.c:293-320 | as written and corrected: read-only and trailing text are refused. It removes exactly the range, or the current line with the cursor stepping back when that line was last. Modified is set. After a range delete the cursor follows `CursorAfterRangeDelete`, so it is kept while index `start` survives. The corrected cursor names a line |
| `Command.ChangeDelete` | command.c:290-325 | `d` deletes; `c` deletes then inserts before the cursor. Corrected, a read-only buffer only reports; as written, `c` inserts anyway |
| `Command.ParseWrite` | command.c:156-208 | the `w` suffix grammar: `wq` quits, `we` edits, and a given name is a suffix of the text |
| `Command.WriteCmd` | command.c:145-233 | a range or read-only buffer is refused before writing. With no file name nothing is written. A successful write stores the given name, clears modified and reports lines minus one when there is no final newline, plus the bytes written; then `wq` quits and `w` does not. Only a successful write changes modified, and `wq` quits only after one, so only with a file name |
| `Command.QuitCmd` | command.c:235-255 | quits exactly for "q!" or for "q" on an unmodified buffer, without a range; "q" on a modified buffer reports unsaved |
| `Command.PrintCmd` | command.c:267-288 | prints each addressed line in order, or the current line, or reports an invalid line |
| `Command.NamedCmd` | command.c:346-354 | `set`/`get` prefixes go to the sub-parser; anything else is invalid |
| `Command.Run` | command.c:86-359 | (corrected) a parse failure changes nothing; a bare address sets the cursor to `start - 1`; `q!` and `q` on an unmodified buffer quit, and only they or a successful `wq` quit; no command but `e` changes the lines or modified flag of a read-only buffer |
| `Command.RunKeepsCursor` | command.c:86-359 | every command but `c` leaves the cursor on a line when it started on one and lines remain |
| `Command.WriteThenQuit` | command.c:145-255 | after a successful `w` on a writable named buffer the lines and name are unchanged and a plain `q` quits |
| `Command.DeleteSecondOfThree` | command.c:293-316 | "2d" on a, b, c with the cursor on line 0 gives a, c with the cursor on index 1, modified |
| `Command.RangeDeleteCursorEscapes` | command.c:297-301 | as written, "1,2d" on five lines with the cursor at 4 leaves it at 4 over three lines; corrected puts it at 2 |
| `Command.ChangeOnReadOnlyAsWritten` | command.c:290-325 | as written, `c` on a read-only buffer inserts the typed line and sets modified; corrected only reports |
| `Cursor.Advance` | gui/gui.c:475-485 | a tab advances to the next tab stop (at most tabstop columns), or by 2 with showtabs; a non-printable character advances by 2; any other by 1 |
| `Cursor.NextTabStop` | gui/gui.c:23-24 | the tab indent is between 1 and tabstop and lands on a multiple of tabstop |
| `Cursor.VisualCol` | gui/gui.c:475-485 | the visual column is the width of the characters before x (all of them when x is past the end), and at least their number |
| `Cursor.WidthAtLeastLength` | gui/gui.c:475-485 | every character takes at least one column |
| `Cursor.WidthAtMost` | gui/gui.c:475-485 | no character takes more than max(2, tabstop) columns |
| `Cursor.WidthWithoutTabStops` | gui/gui.c:475-485 | reference form: with showtabs or no tabs, the width is the length plus one per non-printable character |
| `Cursor.WidthStrictlyGrows` | gui/gui.c:475-485 | drawing more characters always ends further right |
| `Cursor.VisualColMonotonic` | gui/gui.c:475-485 | the visual column never decreases with the logical column, and strictly increases inside the line |
| `Cursor.CoordToScr` | gui/gui.c:459-489 | the screen row is y - pos_top; the screen column is the visual column of x minus pos_left, so it is -pos_left at column 0 or on an empty line |
| `Cursor.Inc` | gui/gui.c:594-607 | does nothing on the last line; never passes nl-1; raises pos_top only enough to keep the cursor SCROLL_OFF above the bottom |
| `Cursor.Dec` | gui/gui.c:609-621 | does nothing on line 0; y becomes max(y-n, 0); pos_top stays put while the cursor is still SCROLL_OFF lines below it, and otherwise becomes max(y - SCROLL_OFF, 0) |
| `Cursor.Move` | gui/gui.c:557-592 | y is clamped into the buffer and x into the line; pos_left <= x < pos_left + COLS, with pos_left changed only when x was outside; moving down keeps the bottom margin, moving up keeps the top margin, and a non-negative pos_top stays non-negative |
| `Cursor.MoveSettles` | gui/gui.c:557-592 | moving again to the same target changes neither the cursor nor pos_left |
| `Cursor.ScrollTarget` | gui/gui.c:645-701 | page and half scrolls always pull the cursor in afterwards; SINGLE_DOWN does iff pos_top < nl - 1 - SCROLL_OFF and SINGLE_UP iff pos_top != 0; a scroll that does not pull keeps the cursor line, and a line scroll that did not act keeps pos_top; CURSOR_TOP targets max(y - SCROLL_OFF, 0) |
| `Cursor.ScrollWindow` | gui/gui.c:638-711 | pos_top >= 0. Page and half scrolls return 1. SINGLE_DOWN returns 1 iff pos_top < nl - 1 - SCROLL_OFF, and SINGLE_UP iff pos_top != 0. A scroll that returns 1 pulls the cursor below pos_top plus the margin (none at the top) and above the bottom margin. A line scroll that did not act leaves the cursor alone. Cursor-relative scrolls return 0 and keep the cursor; CURSOR_TOP puts pos_top at max(y - SCROLL_OFF, 0) |
| `Cursor.GuiScroll` | gui/gui.c:638-715 | after the closing move the cursor is in the buffer and on screen horizontally, and pos_top >= 0 |
| `KeyInput.SignedChar` | gui/gui.c:249-255 | a `char` slot keeps the value modulo 256 in -128..127, and keeps character values unchanged |
| `KeyInput.Ungetch` | gui/gui.c:249-255 | corrected: pushes the key code whole on top of the stack |
| `KeyInput.UngetchAsWritten` | gui/gui.c:249-255 | as written: pushes the code truncated to a `char`; the same as corrected for character values |
| `KeyInput.Queue` | gui/gui.c:257-262 | pushes the characters last to first, so the first is on top |
| `KeyInput.QueueAsWritten` | gui/gui.c:257-262 | as written: pushes the characters last to first through the `char` slot, so slot k from the top holds the k-th character truncated to a `char` |
| `KeyInput.PeekUnget` | gui/gui.c:264-267 | the top of the stack, or 0 when the stack is empty |
| `KeyInput.GetCh` | gui/gui.c:223-247 | pops the stack first, otherwise reads the terminal with CR read as NL; never returns 410 or -1; always consumes input |
| `KeyInput.PeekCh` | gui/gui.c:269-274 | returns the next key and leaves it on top of the stack |
| `KeyInput.PeekChAsWritten` | gui/gui.c:269-274 | returns the next key (as written) |
| `KeyInput.QueueReadsBack` | gui/gui.c:257-262 | round trip: a queued string reads back in its original order and leaves the input as it was |
| `KeyInput.PeekThenGet` | gui/gui.c:269-274 | peeking does not consume: a read after a peek returns what a read alone would |
| `KeyInput.QueueAsWrittenOnChars` | gui/gui.c:249-262 | for character values, queueing as written equals the corrected queue |
| `KeyInput.PeekAsWrittenChangesKey` | gui/gui.c:249-274 | as written, peeking a key code outside -128..127 changes the key read next |
| `KeyInput.PeekUpArrowAsWritten` | gui/gui.c:249-274 | as written, peeking KEY_UP (259) makes the next read return 3, the interrupt key; corrected returns 259 |
| `LineEdit.SkipBack` | gui/gui.c:326-331 | the backward scans over blanks and non-blanks stop at index 0 or at the first character of the other kind |
| `LineEdit.RubOutWord` | gui/gui.c:320-338 | ^W keeps a strict prefix of the text, cut at a blank or emptied |
| `LineEdit.Key` | gui/gui.c:310-390 | ^U empties; ^W rubs out a word; erase removes the last character, or cancels with 1 or does nothing on empty input; Esc returns 1; newline returns 0; other keys are appended and end input with 0 once the length exceeds a nonzero textw |
| `LineEdit.Collect` | gui/gui.c:300-391 | the editing loop returns 0 or 1, the text never exceeds textw + 1 for a positive textw, and input is consumed |
| `LineEdit.GetStr` | gui/gui.c:281-392 | returns 0 or 1, and the text stays within textw + 1 characters |
| `LineEdit.TypedKeys` | gui/gui.c:384-389 | ordinary keys are appended to the text in order |
| `LineEdit.EnterLine` | gui/gui.c:368-374 | a typed line ended by newline is returned exactly, with 0 |
| `LineEdit.WidthEndsInput` | gui/gui.c:384-389 | the key that takes the text past textw ends input with 0 and is kept |
| `LineEdit.EraseUndoesTyping` | gui/gui.c:340-357 | an erase key undoes the character typed before it |
| `LineEdit.KillLineForgets` | gui/gui.c:313-318 | after ^U the input continues as if from an empty line |
| `LineEdit.RubOutLastWord` | gui/gui.c:320-338 | ^W on "w1 w2" plus trailing blanks leaves exactly w1 |
| `PadView.ClipX` | ncurses/view.c:515-524 | afterwards padx <= max(len-1, 0), and padx is unchanged if it already was |
| `PadView.ClipY` | ncurses/view.c:526-532 | corrected: padtop drops to pady above the window or rises to pady - MAX_Y + 1 below it, so pady is on screen |
| `PadView.ClipYAsWritten` | ncurses/view.c:526-532 | as written: a cursor on row padtop + MAX_Y is left off screen |
| `PadView.YInRange` | ncurses/view.c:127-134 | corrected: the pulled-in row is on screen, and unchanged if it already was |
| `PadView.YInRangeAsWritten` | ncurses/view.c:127-134 | as written: row padtop + MAX_Y is not pulled in |
| `PadView.PadYInRange` | ncurses/view.c:127-134 | pady is pulled into the window and padx re-clipped to its line |
| `PadView.PadYInRangeAsWritten` | ncurses/view.c:127-134 | padyinrange as written: pady is pulled with the as-written bound |
| `PadView.ScrolledTop` | ncurses/view.c:74-120 | page and half scrolls set padtop to max(top - k, 0) going up and min(top + k, nlines - 1) going down |
| `PadView.ScrollLine` | ncurses/view.c:52-73 | SINGLE_DOWN moves padtop down by one iff padtop < nlines-1 and SINGLE_UP up by one iff padtop > 0, returning 1 exactly then; the cursor row becomes max(pady, new top) going down and min(pady, new bottom row) going up; the view invariant is kept |
| `PadView.ScrollPage` | ncurses/view.c:74-119 | page and half scrolls set padtop as ScrolledTop says and pady to where padyinrange puts it for that top, keeping the view invariant |
| `PadView.ViewScroll` | ncurses/view.c:47-125 | preserves the view invariant. SINGLE_DOWN acts iff padtop < nlines-1, SINGLE_UP iff padtop > 0, and they return 1 exactly when they act. Page and half scrolls return 1. SINGLE_DOWN moves pady to the new top only if it was above it, SINGLE_UP to the new bottom row only if it was below it; page and half scrolls leave pady alone when it is still visible and otherwise pull it to the nearest visible row |
| `PadView.PageUpAsWritten` | ncurses/view.c:74-80 | page-up as written sets padtop to max(top - MAX_Y, 0) |
| `PadView.PageUpLeavesCursorOffScreen` | ncurses/view.c:127-134 | as written, page-up from line 10 at the top of a 10-row screen leaves the cursor on hidden row 10; corrected puts it on row 9 |
| `PadView.ViewMove` | ncurses/view.c:136-258 | preserves the view invariant. LEFT/RIGHT return 1 iff padx changed. UP/DOWN return 1 iff pady moved, then keep padtop <= pady / pady < padtop+MAX_Y and re-clip padx. ABSOLUTE_UP sets padtop = pady = 0; ABSOLUTE_DOWN sets pady = nlines-1 |
| `PadView.MoveSideways` | ncurses/view.c:151-206 | the column motions keep the line and padtop and the view invariant; LEFT/RIGHT return 1 iff padx moved by one, RIGHT never past the last column; ABSOLUTE_LEFT/RIGHT go to column 0 and to the last column |
| `PadView.MoveVertically` | ncurses/view.c:212-235 | UP/DOWN return 1 iff there is a line to move to, move exactly one line, keep the view invariant and clip padx; otherwise nothing changes |
| `PadView.MoveJump` | ncurses/view.c:161-253 | ABSOLUTE_UP goes to line 0 with padtop 0, ABSOLUTE_DOWN to the last line, SCREEN_TOP to padtop, SCREEN_BOTTOM to the last visible line, CURRENT returns 0 and keeps the line; all keep the view invariant |
| `PadView.DownThenUp` | ncurses/view.c:212-235 | DOWN then UP returns to the same line |
| `PadView.ExpandedWithoutTabs` | ncurses/view.c:270-274 | without tabs each character counts one column |
| `PadView.ActualXLoopClosed` | ncurses/view.c:269-280 | the counting loop equals the closed-form width of the characters passed |
| `PadView.ActualX` | ncurses/view.c:260-284 | tabstop per tab and 1 per other character over the first x characters, one less (floored at 0) at end of line, and x itself without a line |
| `PadView.GetActualXLoopClosed` | ncurses/view.c:298-307 | the counting loop equals the width passed plus the leftover count |
| `PadView.GetActualX` | ncurses/view.c:294-308 | the width of the first min(x, len) characters plus the part of x beyond the line |
| `PadView.ActualXInsideLine` | ncurses/view.c:260-308 | inside a line, view_actualx and view_getactualx agree |
| `PadView.ActualXWithoutTabs` | ncurses/view.c:260-284 | on a line without tabs, view_actualx is min(x, last column) |

## Left out

- Painting and every curses/ncurses call: `gui_draw`, `gui_addch`, the status line, `view_drawbuffer`, `view_waddch`, `resizepad` and the refreshes. Only the integer state they read or write is modelled.
- Colour and syntax highlighting, because it is compiled out or sits behind `VIEW_COLOUR`.
- Macro recording in `gui_getch`, `mark_jump` in `gui_scroll`, `applymotion`, and the completion callback of `gui_getstr`. They are external. ^N is modelled as a key that leaves the text alone, as it does without a callback.
- The interrupt raised for ^C in `gui_getch`. Signals are out of scope; the key is still returned.
- `shellout`, which becomes a `Shell` report.
- File reading and writing, which become the `Load` and `written` inputs.
- `command_dumpbuffer`, because it is file output.
- `longjmp` on allocation failure and the doubling storage of `command_readlines`. Only the resulting lines are modelled.
- The growth of the push-back stack and of the `gui_getstr` buffer. Only their contents are modelled.
- `parserange` and the `buffer_*` bodies, which are not part of this model. Their assumed semantics are listed above.
- `util/str.h`, which declares functions without bodies.
- Message wording, `atoi` and the `char` truncation of a `set` value, and the effects of `vars_set`/`vars_get`. The parser returns the action.
- `view_move`'s NO_BLANK direction, because it compares a pointer with '\0' and so does not do what its name says.
- `Command.Edit`: for a bare "e!" the code reads the name past the end of the string; the model takes the empty name.
- `Command.RunKeepsCursor`: excludes `c`. Deleting the only line steps the cursor back to -1, and the insertion that follows does not move it, so the cursor is left off the buffer.
- `PadView.ViewScroll`: stated only on states satisfying `PadView.Valid`, the invariant of the corrected view: the corrected `padyinrange` keeps it and every corrected motion preserves it. The code as written can leave pady on row padtop + MAX_Y, just below the screen, which `PadView.Valid` excludes. That off-screen state is covered only by `PadView.PageUpAsWritten` and `PadView.PageUpLeavesCursorOffScreen`, not by `ViewScroll`.
- `PadView.ViewMove`: likewise stated only on states satisfying `PadView.Valid`. The code is well defined from the off-screen state above, since the line at pady exists, but the model does not describe motions from it.
- `Command.Run`: models the command loop with three corrections. It uses the corrected collector, so long lines are kept; the as-written collector is `Collector.ReadLinesAsWritten`. It clamps the cursor after a range delete; the as-written rule is `Command.DeleteLines` with `asWritten` true. It refuses `c` on a read-only buffer; the as-written fall-through is `Command.ChangeDelete` with `asWritten` true. So its read-only clause does not hold of command.c as written.
- `LineEdit.GetStr`: a key whose low byte is 0 stores a NUL inside the text, which a C reader would see as the end of the string. The model keeps all the stored values.
- `LineEdit.GetStr`: when the key sequence runs out the model returns `OutOfKeys`; the real function waits for more keys.
- Lines are taken to hold no NUL character, so `strlen` is the sequence length.

Three behaviours of the code that are easy to misread, modelled as the code does them:
- A bare address moves the cursor to the range's start line, not its end.
- The collector never returns an empty list, so `a`, `i` and `c` always splice at least one line and always set the modified flag.
- Inserting "hello" and "world" with `i` into a new buffer gives three lines, because the new buffer's empty line remains after them.

## Findings

| source | as written | input that shows it | evidently intended | confidence | as-written member | corrected member |
|---|---|---|---|---|---|---|
| command.c:49-71 | a line longer than one window is gathered into `s` but never appended to the list | windows "ab", "c\n", then end of input: the result is [""] | the joined line "abc" is appended | high; not executed | `Collector.LongLineDropped` | `Collector.LongLineKept` |
| gui/gui.c:249-274 | `unget_buf` is `char`, so a peeked key code above 127 comes back truncated | peek KEY_UP (259), then read: 3 (^C, which raises an interrupt) | the stack holds whole `int` key codes | high; not executed | `KeyInput.PeekUpArrowAsWritten` | `KeyInput.PeekThenGet` |
| command.c:297-301 | after a range delete the cursor is reset only if index `start` is gone, so it can point past the end | five lines, cursor 4, "1,2d": three lines, cursor still 4 | the cursor is clamped to the new last line | high; not executed | `Command.RangeDeleteCursorEscapes` | `Command.CursorAfterRangeDelete` |
| ncurses/view.c:127-134 | `padyinrange` (and `clippady`, 526-532) test `pady > padtop + MAX_Y`, but row padtop + MAX_Y is not on screen | 10 screen rows, 20 lines, padtop = pady = 10, PAGE_UP: padtop 0, pady stays 10 | `>=`, as `view_move` and SINGLE_UP use | high; not executed | `PadView.PageUpLeavesCursorOffScreen` | `PadView.ViewScroll` |
| command.c:290-325 | `c` on a read-only buffer reports the error, then falls through to the insertion | read-only ["a"], cursor 0, `c` with the line "x": lines become ["x", "a"] and modified is set | a read-only buffer is left unchanged | high; not executed | `Command.ChangeOnReadOnlyAsWritten` | `Command.Run` |

=== FILE: basics.dfy ===
/**
 Small definitions shared by the editor model: an Option type, integer
 clamping helpers, the C character classes the editor consults, and the
 scroll request both screen front ends understand.
 */
module Basics {

  /** A value that may be absent, in place of a NULL pointer. */
  datatype Option<+T> = None | Some(value: T)

  function Min(a: int, b: int): int
  {
    if a < b then a else b
  }

  function Max(a: int, b: int): int
  {
    if a < b then b else a
  }

  /** isprint() in the "C" locale: the ASCII characters from space to tilde. */
  predicate IsPrint(c: char)
  {
    ' ' <= c <= '~'
  }

  /** isalpha() in the "C" locale. */
  predicate IsAlpha(c: char)
  {
    'a' <= c <= 'z' || 'A' <= c <= 'Z'
  }

  /** isspace() in the "C" locale, on a character code. */
  predicate IsSpace(c: int)
  {
    c == 32 || 9 <= c <= 13
  }

  /** How many characters of the line lie before logical column x. */
  function Prefix(line: string, x: int): (k: nat)
    ensures k <= |line|
    ensures 0 <= x <= |line| ==> k == x
  {
    if x <= 0 then 0 else Min(x, |line|)
  }

  /** The last column a cursor may rest on in a line: its last character, or 0. */
  function LastCol(line: string): (c: nat)
    ensures |line| > 0 ==> c == |line| - 1
    ensures |line| == 0 ==> c == 0
  {
    if |line| == 0 then 0 else |line| - 1
  }

  /** The scroll requests of the editor (enum scroll). */
  datatype Scroll =
    | SingleUp | SingleDown
    | PageUp | PageDown
    | HalfUp | HalfDown
    | CursorTop | CursorBottom | CursorMiddle
}

=== FILE: collector.dfy ===
/**
 The input collector (command_readlines in command.c): turns the reports of
 a line source into the list of lines an insertion command splices in.

 The source is a finite sequence of reads; asking it for more once it is
 exhausted behaves like end of input. Each read's text is what the source
 put in the caller's fixed window. The window-doubling storage of
 command_readlines is not modelled, only the lines it produces.
 */
module Collector {

  /** One report of the line source (enum gret) with the text it delivered. */
  datatype Read = Eof | Last(text: string) | Continue(text: string)

  /** Position of the first newline of `s`, or |s| when there is none. */
  function NewlineAt(s: string): (i: nat)
    ensures i <= |s|
    ensures i < |s| <==> '\n' in s
    ensures i < |s| ==> s[i] == '\n'
    ensures forall j :: 0 <= j < i ==> s[j] != '\n'
  {
    if |s| == 0 then 0
    else if s[0] == '\n' then 0
    else 1 + NewlineAt(s[1..])
  }

  /** The text before the first newline: what `*nl = '\0'` leaves of a window. */
  function CutAtNewline(s: string): (r: string)
    ensures '\n' !in r
    ensures |r| <= |s| && r == s[..|r|]
    ensures '\n' in s ==> |r| < |s| && s[|r|] == '\n'
    ensures '\n' !in s ==> r == s
  {
    s[..NewlineAt(s)]
  }

  /**
   The overflow loop: after a window without a newline, windows are gathered
   while the source keeps answering "continue", until one holds a newline.
   Returns the joined text (cut at that newline) and how many reads were used;
   the read that ends the loop is used up without being looked at.
   */
  function Overflow(src: seq<Read>, acc: string): (r: (string, nat))
    requires '\n' !in acc
    ensures '\n' !in r.0
    ensures r.1 <= |src|
    ensures |src| > 0 ==> r.1 >= 1
    decreases |src|
  {
    if |src| == 0 then (acc, 0)
    else match src[0]
      case Continue(t) =>
        if '\n' in t then (acc + CutAtNewline(t), 1)
        else
          var rest := Overflow(src[1..], acc + t);
          (rest.0, rest.1 + 1)
      case _ => (acc, 1)
  }

  /**
   The collecting loop. `keepLong` selects what becomes of a line that did not
   fit in one window: the code as written drops it (false), the corrected
   collector appends it like any other line (true).
   */
  function Gather(src: seq<Read>, keepLong: bool): (r: seq<string>)
    ensures forall i :: 0 <= i < |r| ==> '\n' !in r[i]
    decreases |src|
  {
    if |src| == 0 || src[0].Eof? then []
    else
      var t := src[0].text;
      var stop := src[0].Last?;
      if '\n' in t then
        [CutAtNewline(t)] + (if stop then [] else Gather(src[1..], keepLong))
      else
        var (line, used) := Overflow(src[1..], t);
        (if keepLong then [line] else [])
        + (if stop then [] else Gather(src[1 + used..], keepLong))
  }

  /** The list is never returned empty: with nothing read it holds one empty line. */
  function Finish(lines: seq<string>): (r: seq<string>)
    ensures |r| >= 1
    ensures |lines| > 0 ==> r == lines
    ensures |lines| == 0 ==> r == [""]
  {
    if |lines| == 0 then [""] else lines
  }

  /** command_readlines as written: lines longer than one window are lost. */
  function ReadLinesAsWritten(src: seq<Read>): (r: seq<string>)
    ensures |r| >= 1
    ensures forall i :: 0 <= i < |r| ==> '\n' !in r[i]
    ensures |src| == 0 || src[0].Eof? ==> r == [""]
  {
    Finish(Gather(src, false))
  }

  /** command_readlines with long lines kept; the interpreter uses this one. */
  function ReadLines(src: seq<Read>): (r: seq<string>)
    ensures |r| >= 1
    ensures forall i :: 0 <= i < |r| ==> '\n' !in r[i]
    ensures |src| == 0 || src[0].Eof? ==> r == [""]
  {
    Finish(Gather(src, true))
  }

  /**
   Reference definition: the window texts the collector looks at, in order,
   up to and including the first "last" read and stopping at end of input.
   */
  function Texts(src: seq<Read>): seq<string>
    decreases |src|
  {
    if |src| == 0 || src[0].Eof? then []
    else [src[0].text] + (if src[0].Last? then [] else Texts(src[1..]))
  }

  function CutAll(ts: seq<string>): (r: seq<string>)
    ensures |r| == |ts|
    ensures forall i :: 0 <= i < |ts| ==> r[i] == CutAtNewline(ts[i])
  {
    if |ts| == 0 then [] else [CutAtNewline(ts[0])] + CutAll(ts[1..])
  }

  /**
   When every window holds a newline, each window becomes one line, cut at
   its newline, in input order; a "last" read adds its line and ends the list.
   This holds of the code as written and of the corrected collector alike.
   */
  lemma {:induction false} OneLinePerWindow(src: seq<Read>, keepLong: bool)
    requires forall i :: 0 <= i < |Texts(src)| ==> '\n' in Texts(src)[i]
    ensures Gather(src, keepLong) == CutAll(Texts(src))
    decreases |src|
  {
    if |src| == 0 || src[0].Eof? {
    } else {
      assert Texts(src)[0] == src[0].text;
      if !src[0].Last? {
        var tail := Texts(src[1..]);
        assert Texts(src) == [src[0].text] + tail;
        forall i | 0 <= i < |tail|
          ensures '\n' in tail[i]
        {
          assert tail[i] == Texts(src)[i + 1];
        }
        OneLinePerWindow(src[1..], keepLong);
      }
    }
  }

  /** A "last" read holding a newline yields exactly its line; nothing after it is read. */
  lemma LastEndsCollection(t: string, rest: seq<Read>)
    requires '\n' in t
    ensures ReadLines([Last(t)] + rest) == [CutAtNewline(t)]
    ensures ReadLinesAsWritten([Last(t)] + rest) == [CutAtNewline(t)]
  {
    var src := [Last(t)] + rest;
    assert src[0] == Last(t);
  }

  /**
   The corrected collector keeps a line spread over two windows as one line,
   the first window's text joined to the second's up to its newline.
   */
  lemma LongLineKept(t1: string, t2: string, rest: seq<Read>)
    requires '\n' !in t1 && '\n' in t2
    ensures Gather([Continue(t1), Continue(t2)] + rest, true)
      == [t1 + CutAtNewline(t2)] + Gather(rest, true)
  {
    var src := [Continue(t1), Continue(t2)] + rest;
    assert src[1..] == [Continue(t2)] + rest;
    assert Overflow(src[1..], t1) == (t1 + CutAtNewline(t2), 1);
    assert src[2..] == rest;
  }

  /** The same input through the code as written: the two-window line disappears. */
  lemma LongLineDropped(t1: string, t2: string, rest: seq<Read>)
    requires '\n' !in t1 && '\n' in t2
    ensures Gather([Continue(t1), Continue(t2)] + rest, false) == Gather(rest, false)
  {
    var src := [Continue(t1), Continue(t2)] + rest;
    assert src[1..] == [Continue(t2)] + rest;
    assert Overflow(src[1..], t1) == (t1 + CutAtNewline(t2), 1);
    assert src[2..] == rest;
  }

  /** A concrete input: "ab" then "c\n" then end of input. */
  lemma LongLineExample()
    ensures ReadLinesAsWritten([Continue("ab"), Continue("c\n"), Eof]) == [""]
    ensures ReadLines([Continue("ab"), Continue("c\n"), Eof]) == ["abc"]
  {
    LongLineDropped("ab", "c\n", [Eof]);
    LongLineKept("ab", "c\n", [Eof]);
    assert CutAtNewline("c\n") == "c";
    assert Gather([Eof], true) == [];
    assert "ab" + "c" == "abc";
  }
}

=== FILE: command.dfy ===
/**
 The ex-style command interpreter (command_run, command_e and
 command_readfile in command.c).

 The interpreter sees one command line. The address parser (parserange) is
 not part of this model: its answer is an input of type Parsed, and the
 interpreter relies only on what the parser promises (ParserContract). The
 world outside the buffer is an input too: the lines the insertion commands
 read, whether a write succeeded, what loading a file produced, and the
 table of settings. Messages are reports in a list, in the order they are
 emitted; their wording is not modelled.
 */
module Command {
  import opened Basics
  import opened LineStore
  import Collector
  import SetGet

  /** A range of lines, 1-based and inclusive, as the address parser returns it. */
  datatype Range = Range(start: int, end: int)

  /**
   The address parser's answer: failure (NULL), or the range, whether an
   address was actually written (HAVE_RANGE), and the command text after it.
   */
  datatype Parsed = BadAddress | Addressed(rng: Range, hasRange: bool, rest: string)

  /** What the parser guarantees: a written address lies inside the buffer. */
  predicate ParserContract(p: Parsed, lines: seq<string>)
  {
    p.Addressed? && p.hasRange ==> ValidRange(lines, p.rng.start, p.rng.end)
  }

  /** What buffer_read did with a file. */
  datatype Load =
    | Loaded(lines: seq<string>, nread: nat, eol: bool, readOnly: bool)
    | Missing                  // the file does not exist (ENOENT)
    | Failed(error: string)    // any other read error

  /** What the loader is assumed to guarantee: a loaded buffer has at least one line. */
  predicate LoadContract(l: Load)
  {
    l.Loaded? ==> |l.lines| > 0
  }

  /**
   Everything one command may consult outside the buffer: the line source for
   insertions, the result of a write (bytes written, or failure), the result
   of a load, and the settings table.
   */
  datatype World = World(
    input: seq<Collector.Read>,
    written: Option<nat>,
    load: Load,
    vars: map<string, SetGet.VarKind>)

  /** The messages a command emits, through wrongfunc (Wrong) or pfunc (the rest). */
  datatype Report =
    | Wrong
    | ReadOnlyErr
    | Unsaved
    | NoFilename
    | WriteFailed(name: string)
    | Written(name: string, nlines: int, nchars: nat)
    | LineNumber(n: int)
    | Print(text: string)
    | InvalidCurrentLine
    | Shell(command: string)
    | Setting(action: SetGet.Action)
    | NewFile
    | ReadError(name: string, error: string)
    | EmptyFile(readOnly: bool)
    | Opened(name: string, readOnly: bool, nlines: int, eol: bool)

  /** The interpreter's state: the buffer and the 0-based current line. */
  datatype State = State(buf: Buffer, cur: int)

  /** What command_run leaves: the new state, whether it returned 0 (quit), and its reports. */
  datatype Outcome = Outcome(st: State, quit: bool, reports: seq<Report>)

  function Stay(st: State, reports: seq<Report>): Outcome
  {
    Outcome(st, false, reports)
  }

  /** The cursor names an existing line. */
  predicate CursorValid(st: State)
  {
    HasIndex(st.buf.lines, st.cur)
  }

  // ---------------------------------------------------------------- loading

  /**
   command_readfile: the buffer that replaces the current one. A missing file
   gives an empty buffer carrying the name; any other read error gives an
   empty read-only buffer; a loaded file is read-only when the loader or the
   caller says so.
   */
  function ReadFile(fname: Option<string>, forceReadOnly: bool, load: Load): (r: (Buffer, seq<Report>))
    ensures !r.0.modified
    ensures fname.None? ==> r.0 == EmptyBuffer() && r.1 == [NewFile]
    ensures fname.Some? ==> r.0.filename == fname
    ensures fname.Some? ==>
      (r.0.readOnly <==> load.Failed? || (load.Loaded? && (load.readOnly || forceReadOnly)))
    ensures fname.Some? && !load.Loaded? ==> r.0.lines == [""]
    ensures fname.Some? && load.Loaded? ==> r.0.lines == load.lines && r.0.eol == load.eol
    ensures fname.Some? && load.Missing? ==> r.1 == [NewFile]
    ensures LoadContract(load) ==> |r.0.lines| > 0
  {
    match fname
    case None => (EmptyBuffer(), [NewFile])
    case Some(f) =>
      match load
      case Missing => (EmptyBuffer().(filename := fname), [NewFile])
      case Failed(err) =>
        (EmptyBuffer().(filename := fname, readOnly := true), [ReadError(f, err)])
      case Loaded(lines, nread, eol, ro) =>
        var b := Buffer(lines, false, ro || forceReadOnly, fname, eol);
        (b, [if nread == 0 then EmptyFile(b.readOnly) else Opened(f, b.readOnly, |lines|, eol)])
  }

  /**
   The replace-buffer step of command_e: refused with "unsaved" on a modified
   buffer unless forced; otherwise the file is loaded and the cursor kept if
   the new buffer still has that line, else put on its last line.
   */
  function Reload(fname: string, force: bool, st: State, load: Load): (r: Outcome)
    ensures !r.quit
    ensures !force && st.buf.modified ==> r == Stay(st, [Unsaved])
    ensures force || !st.buf.modified ==>
      && r.st.buf == ReadFile(Some(fname), false, load).0
      && (st.cur < |r.st.buf.lines| ==> r.st.cur == st.cur)
      && (st.cur >= |r.st.buf.lines| ==> r.st.cur == |r.st.buf.lines| - 1)
    ensures LoadContract(load) && st.cur >= 0 ==> CursorValid(r.st) || r.st == st
  {
    if !force && st.buf.modified then Stay(st, [Unsaved])
    else
      var (b, reports) := ReadFile(Some(fname), false, load);
      var n := |b.lines|;
      Stay(State(b, if st.cur >= n then n - 1 else st.cur), reports)
  }

  /**
   command_e: "e name" loads name, "e! name" loads it whatever the modified
   flag says; anything else is an invalid command. The name of "e!" starts
   three characters in; a bare "e!" is taken to name the empty string.
   */
  function Edit(s: string, st: State, load: Load): (r: Outcome)
    requires |s| >= 1 && s[0] == 'e'
    ensures !r.quit
    ensures (|s| < 2 || (s[1] != ' ' && s[1] != '!')) ==> r == Stay(st, [Wrong])
    ensures |s| >= 2 && s[1] == ' ' && st.buf.modified ==> r == Stay(st, [Unsaved])
    ensures |s| >= 2 && s[1] == ' ' && !st.buf.modified ==> r.st.buf == ReadFile(Some(s[2..]), false, load).0
    ensures |s| >= 2 && s[1] == '!' ==> r.st.buf == ReadFile(Some(if |s| >= 3 then s[3..] else ""), false, load).0
    ensures LoadContract(load) && st.cur >= 0 ==> CursorValid(r.st) || r.st == st
  {
    if |s| < 2 then Stay(st, [Wrong])
    else if s[1] == ' ' then Reload(s[2..], false, st, load)
    else if s[1] == '!' then Reload(if |s| >= 3 then s[3..] else "", true, st, load)
    else Stay(st, [Wrong])
  }

  // -------------------------------------------------------------- insertion

  /**
   The insertion shared by `a`, `i` and `c`: collect a block of lines and
   splice it after (`a`) or before the current line. The cursor index stays.
   */
  function Splice(st: State, after: bool, input: seq<Collector.Read>): (r: State)
    ensures var block := Collector.ReadLines(input);
      && r.cur == st.cur
      && r.buf == st.buf.(lines := r.buf.lines, modified := true)
      && |r.buf.lines| == |st.buf.lines| + |block|
      && (after && CursorValid(st) ==>
            r.buf.lines[..st.cur + 1] == st.buf.lines[..st.cur + 1]
            && r.buf.lines[st.cur + 1..st.cur + 1 + |block|] == block
            && r.buf.lines[st.cur + 1 + |block|..] == st.buf.lines[st.cur + 1..])
      && (!after && CursorValid(st) ==>
            r.buf.lines[..st.cur] == st.buf.lines[..st.cur]
            && r.buf.lines[st.cur..st.cur + |block|] == block
            && r.buf.lines[st.cur + |block|..] == st.buf.lines[st.cur..])
      && (!CursorValid(st) ==> r.buf.lines == st.buf.lines + block)
  {
    var block := Collector.ReadLines(input);
    var lines := if after then InsertAfter(st.buf.lines, st.cur, block)
                 else InsertBefore(st.buf.lines, st.cur, block);
    State(st.buf.(lines := lines, modified := true), st.cur)
  }

  /**
   `a` and `i`: refused on a read-only buffer, rejected with an address or
   trailing text, otherwise the collected block is spliced in and the buffer
   marked modified.
   */
  function InsertCmd(st: State, hasRange: bool, s: string, input: seq<Collector.Read>): (r: Outcome)
    requires |s| >= 1 && (s[0] == 'a' || s[0] == 'i')
    ensures !r.quit
    ensures st.buf.readOnly ==> r == Stay(st, [ReadOnlyErr])
    ensures !st.buf.readOnly && (hasRange || |s| != 1) ==> r == Stay(st, [Wrong])
    ensures !st.buf.readOnly && !hasRange && |s| == 1 ==>
      r == Stay(Splice(st, s[0] == 'a', input), [])
  {
    if st.buf.readOnly then Stay(st, [ReadOnlyErr])
    else if !hasRange && |s| == 1 then Stay(Splice(st, s[0] == 'a', input), [])
    else Stay(st, [Wrong])
  }

  // --------------------------------------------------------------- deletion

  /** The state after `d` (or the first half of `c`), or the report that stopped it. */
  datatype Deleted = Removed(st: State) | Refused(report: Report)

  /**
   Where the cursor goes after a range deletion. As written, it moves to the
   new last line only when 0-based index `start` no longer exists, and is
   otherwise left alone even when it now points past the end. Corrected, it
   also moves there when its own line no longer exists.
   */
  function CursorAfterRangeDelete(after: seq<string>, start: int, cur: int, asWritten: bool): (c: int)
    ensures HasIndex(after, start) && HasIndex(after, cur) ==> c == cur
    ensures !HasIndex(after, start) ==> c == |after| - 1
    ensures !asWritten && |after| > 0 && cur >= 0 ==> HasIndex(after, c)
  {
    if HasIndex(after, start) && (asWritten || cur < |after|) then cur else |after| - 1
  }

  /**
   `d`: refused on a read-only buffer and rejected with trailing text. With an
   address the range goes; without one the current line goes, the cursor
   first stepping back if that line was the last. Either way the buffer is
   marked modified. Without an address and without a current line nothing
   happens but a report.
   */
  function DeleteLines(st: State, hasRange: bool, rng: Range, s: string, asWritten: bool): (r: Deleted)
    requires hasRange ==> ValidRange(st.buf.lines, rng.start, rng.end)
    ensures st.buf.readOnly ==> r == Refused(ReadOnlyErr)
    ensures !st.buf.readOnly && |s| != 1 ==> r == Refused(Wrong)
    ensures r.Removed? <==> !st.buf.readOnly && |s| == 1 && (hasRange || CursorValid(st))
    ensures r.Removed? ==> r.st.buf == st.buf.(lines := r.st.buf.lines, modified := true)
    ensures r.Removed? && hasRange ==>
      && |r.st.buf.lines| == |st.buf.lines| - (rng.end - rng.start + 1)
      && r.st.buf.lines[..rng.start - 1] == st.buf.lines[..rng.start - 1]
      && r.st.buf.lines[rng.start - 1..] == st.buf.lines[rng.end..]
      && (!HasIndex(r.st.buf.lines, rng.start) ==> r.st.cur == |r.st.buf.lines| - 1)
      && r.st.cur == CursorAfterRangeDelete(r.st.buf.lines, rng.start, st.cur, asWritten)
    ensures r.Removed? && !hasRange ==>
      && |r.st.buf.lines| == |st.buf.lines| - 1
      && r.st.buf.lines[..st.cur] == st.buf.lines[..st.cur]
      && r.st.buf.lines[st.cur..] == st.buf.lines[st.cur + 1..]
      && r.st.cur == (if st.cur == |st.buf.lines| - 1 then st.cur - 1 else st.cur)
    ensures !asWritten && r.Removed? && st.cur >= 0 && |r.st.buf.lines| > 0 ==> CursorValid(r.st)
  {
    if st.buf.readOnly then Refused(ReadOnlyErr)
    else if |s| != 1 then Refused(Wrong)
    else if hasRange then
      var lines := RemoveRange(st.buf.lines, rng.start, rng.end);
      Removed(State(st.buf.(lines := lines, modified := true),
                    CursorAfterRangeDelete(lines, rng.start, st.cur, asWritten)))
    else if CursorValid(st) then
      var cur := if st.cur == |st.buf.lines| - 1 then st.cur - 1 else st.cur;
      Removed(State(st.buf.(lines := Remove(st.buf.lines, st.cur), modified := true), cur))
    else Refused(InvalidCurrentLine)
  }

  /**
   `d` and `c`: delete, then for `c` insert the collected block before the
   cursor. As written, `c` on a read-only buffer reports the error and then
   goes on to the insertion all the same, and the range deletion does not
   keep the cursor on a line; corrected, a read-only buffer is left alone.
   */
  function ChangeDelete(st: State, hasRange: bool, rng: Range, s: string, input: seq<Collector.Read>, asWritten: bool): (r: Outcome)
    requires |s| >= 1 && (s[0] == 'c' || s[0] == 'd')
    requires hasRange ==> ValidRange(st.buf.lines, rng.start, rng.end)
    ensures !r.quit
    ensures st.buf.readOnly && (!asWritten || s[0] == 'd') ==> r == Stay(st, [ReadOnlyErr])
    ensures st.buf.readOnly && asWritten && s[0] == 'c' ==> r == Stay(Splice(st, false, input), [ReadOnlyErr])
    ensures !st.buf.readOnly ==>
      var d := DeleteLines(st, hasRange, rng, s, asWritten);
      && (d.Refused? ==> r == Stay(st, [d.report]))
      && (d.Removed? && s[0] == 'd' ==> r == Stay(d.st, []))
      && (d.Removed? && s[0] == 'c' ==> r == Stay(Splice(d.st, false, input), []))
  {
    if st.buf.readOnly && asWritten && s[0] == 'c' then Stay(Splice(st, false, input), [ReadOnlyErr])
    else match DeleteLines(st, hasRange, rng, s, asWritten)
      case Refused(report) => Stay(st, [report])
      case Removed(after) =>
        if s[0] == 'c' then Stay(Splice(after, false, input), []) else Stay(after, [])
  }

  // ------------------------------------------------------- writing, quitting

  /** What follows `w`: whether to quit or edit afterwards, and a new file name. */
  datatype WriteArgs = WriteArgs(quit: bool, edit: bool, name: Option<string>) | BadWrite

  /**
   The suffix grammar of `w`: "w", "wq", "w name", "wq name" (the name starts
   after the third character), and "we..." (chained to `e` after the write).
   "w " alone names the one-space file, as the code does.
   */
  function ParseWrite(s: string): (a: WriteArgs)
    requires |s| >= 1
    ensures a.WriteArgs? && a.quit ==> |s| >= 2 && s[1] == 'q'
    ensures a.WriteArgs? && a.edit ==> |s| >= 3 && s[1] == 'e' && !a.quit && a.name.None?
    ensures |s| == 1 ==> a == WriteArgs(false, false, None)
    ensures a.WriteArgs? && a.name.Some? ==> |a.name.value| < |s| && a.name.value == s[|s| - |a.name.value|..]
  {
    if |s| == 1 then WriteArgs(false, false, None)
    else if |s| == 2 then
      if s[1] == 'q' then WriteArgs(true, false, None)
      else if s[1] == ' ' then WriteArgs(false, false, Some(s[1..]))
      else BadWrite
    else if s[1] == ' ' then WriteArgs(false, false, Some(s[2..]))
    else if s[1] == 'q' then WriteArgs(true, false, Some(s[3..]))
    else if s[1] == 'e' then WriteArgs(false, true, None)
    else BadWrite
  }

  /**
   `w`: rejected with an address or on a read-only buffer before anything is
   written; without a file name it reports and writes nothing; a failed write
   reports and stops; a successful write clears the modified flag and reports
   the line count less one when the text lacks a final newline. Then `wq`
   quits and `we` goes on to `e` with the rest of the text.
   */
  function WriteCmd(st: State, hasRange: bool, s: string, w: World): (r: Outcome)
    requires |s| >= 1 && s[0] == 'w'
    ensures hasRange ==> r == Stay(st, [Wrong])
    ensures !hasRange && st.buf.readOnly ==> r == Stay(st, [ReadOnlyErr])
    ensures r.st.buf.lines == st.buf.lines || (|s| >= 3 && s[1] == 'e')
    ensures r.quit ==> |s| >= 2 && s[1] == 'q' && !r.st.buf.modified && w.written.Some? && r.st.buf.filename.Some?
    ensures (!hasRange && !st.buf.readOnly && ParseWrite(s).WriteArgs? && ParseWrite(s).name.None?
             && st.buf.filename.None?) ==> r == Stay(st, [NoFilename])
    ensures r.st.buf.modified != st.buf.modified ==> w.written.Some?
    ensures (!hasRange && !st.buf.readOnly && ParseWrite(s).WriteArgs? && w.written.Some?
             && (st.buf.filename.Some? || ParseWrite(s).name.Some?)) ==>
        |r.reports| >= 1 && r.reports[0].Written?
        && r.reports[0].nlines == |st.buf.lines| - (if st.buf.eol then 0 else 1)
        && r.reports[0].nchars == w.written.value
    ensures (!hasRange && !st.buf.readOnly && ParseWrite(s).WriteArgs? && !ParseWrite(s).edit
             && w.written.Some? && (st.buf.filename.Some? || ParseWrite(s).name.Some?)) ==>
      && !r.st.buf.modified
      && r.quit == ParseWrite(s).quit
      && r.st.buf.filename == (if ParseWrite(s).name.Some? then ParseWrite(s).name else st.buf.filename)
    ensures !hasRange && st.buf.filename.None? && ParseWrite(s) == WriteArgs(false, false, None) ==>
      r == Stay(st, if st.buf.readOnly then [ReadOnlyErr] else [NoFilename])
  {
    if hasRange then Stay(st, [Wrong])
    else if st.buf.readOnly then Stay(st, [ReadOnlyErr])
    else match ParseWrite(s)
      case BadWrite => Stay(st, [Wrong])
      case WriteArgs(quit, edit, name) =>
        var named := if name.Some? then st.buf.(filename := name) else st.buf;
        if named.filename.None? then Stay(st.(buf := named), [NoFilename])
        else match w.written
          case None => Stay(st.(buf := named), [WriteFailed(named.filename.value)])
          case Some(n) =>
            var saved := st.(buf := named.(modified := false));
            var report := Written(named.filename.value, |named.lines| - (if named.eol then 0 else 1), n);
            if edit then
              var e := Edit(s[1..], saved, w.load);
              Outcome(e.st, false, [report] + e.reports)
            else Outcome(saved, quit, [report])
  }

  /**
   `q` and `q!`: rejected with an address or more than two characters; `q`
   refuses with "unsaved" on a modified buffer; otherwise the loop ends.
   */
  function QuitCmd(st: State, hasRange: bool, s: string): (r: Outcome)
    requires |s| >= 1 && s[0] == 'q'
    ensures r.st == st
    ensures r.quit <==> !hasRange && (s == "q!" || (s == "q" && !st.buf.modified))
    ensures !hasRange && s == "q" && st.buf.modified ==> r.reports == [Unsaved]
    ensures hasRange || |s| > 2 ==> r.reports == [Wrong]
  {
    if hasRange || |s| > 2 then Stay(st, [Wrong])
    else if |s| == 1 then
      if st.buf.modified then Stay(st, [Unsaved]) else Outcome(st, true, [])
    else if s[1] == '!' then Outcome(st, true, [])
    else Stay(st, [Wrong])
  }

  // ------------------------------------------------------------ the others

  function PrintAll(ls: seq<string>): (r: seq<Report>)
    ensures |r| == |ls|
    ensures forall i :: 0 <= i < |ls| ==> r[i] == Print(ls[i])
  {
    if |ls| == 0 then [] else [Print(ls[0])] + PrintAll(ls[1..])
  }

  /** `p`: prints the addressed lines, or the current line, or says it is invalid. */
  function PrintCmd(st: State, hasRange: bool, rng: Range, s: string): (r: Outcome)
    requires hasRange ==> ValidRange(st.buf.lines, rng.start, rng.end)
    ensures r.st == st && !r.quit
    ensures |s| != 1 ==> r.reports == [Wrong]
    ensures |s| == 1 && hasRange ==>
      |r.reports| == rng.end - rng.start + 1
      && forall k :: 0 <= k < |r.reports| ==> r.reports[k] == Print(st.buf.lines[rng.start - 1 + k])
    ensures |s| == 1 && !hasRange ==>
      r.reports == [if CursorValid(st) then Print(st.buf.lines[st.cur]) else InvalidCurrentLine]
  {
    if |s| != 1 then Stay(st, [Wrong])
    else if hasRange then
      var shown := st.buf.lines[rng.start - 1..rng.end];
      assert forall k :: 0 <= k < |shown| ==> shown[k] == st.buf.lines[rng.start - 1 + k];
      Stay(st, PrintAll(shown))
    else if CursorValid(st) then Stay(st, [Print(st.buf.lines[st.cur])])
    else Stay(st, [InvalidCurrentLine])
  }

  /** Commands recognised by their whole first word: "set" and "get", else invalid. */
  function NamedCmd(st: State, s: string, vars: map<string, SetGet.VarKind>): (r: Outcome)
    ensures r.st == st && !r.quit && |r.reports| == 1
    ensures |s| >= 3 && s[..3] == "set" ==> r.reports == [Setting(SetGet.Parse(true, s[3..], vars))]
    ensures |s| >= 3 && s[..3] == "get" ==> r.reports == [Setting(SetGet.Parse(false, s[3..], vars))]
    ensures !(|s| >= 3 && (s[..3] == "set" || s[..3] == "get")) ==> r.reports == [Wrong]
  {
    if |s| >= 3 && s[..3] == "set" then Stay(st, [Setting(SetGet.Parse(true, s[3..], vars))])
    else if |s| >= 3 && s[..3] == "get" then Stay(st, [Setting(SetGet.Parse(false, s[3..], vars))])
    else Stay(st, [Wrong])
  }

  /**
   command_run: one command line, already split by the address parser.
   A parse failure changes nothing; an address alone moves the cursor to the
   addressed line; otherwise the first character picks the command.
   */
  function Run(p: Parsed, st: State, w: World): (r: Outcome)
    requires ParserContract(p, st.buf.lines)
    ensures p.BadAddress? ==> r == Stay(st, [])
    ensures p.Addressed? && p.hasRange && p.rest == "" ==> r == Stay(st.(cur := p.rng.start - 1), [])
    ensures p.Addressed? && !p.hasRange && p.rest == "" ==> r == Stay(st, [Wrong])
    ensures r.quit ==>
      && p.Addressed? && !p.hasRange && |p.rest| >= 1
      && (p.rest == "q!" || (p.rest == "q" && !st.buf.modified)
          || (|p.rest| >= 2 && p.rest[..2] == "wq" && !r.st.buf.modified))
    ensures p.Addressed? && !p.hasRange && (p.rest == "q!" || (p.rest == "q" && !st.buf.modified)) ==> r.quit
    ensures st.buf.readOnly && !(p.Addressed? && |p.rest| >= 1 && p.rest[0] == 'e') ==>
      r.st.buf.lines == st.buf.lines && r.st.buf.modified == st.buf.modified
  {
    match p
    case BadAddress => Stay(st, [])
    case Addressed(rng, hasRange, s) =>
      if hasRange && s == "" then Stay(st.(cur := rng.start - 1), [])
      else if s == "" then Stay(st, [Wrong])
      else match s[0]
        case 'a' => InsertCmd(st, hasRange, s, w.input)
        case 'i' => InsertCmd(st, hasRange, s, w.input)
        case 'w' => WriteCmd(st, hasRange, s, w)
        case 'q' => QuitCmd(st, hasRange, s)
        case 'g' =>
          if hasRange then Stay(st, [Wrong])
          else if |s| != 1 then NamedCmd(st, s, w.vars)
          else Stay(st, [LineNumber(1 + st.cur)])
        case 'p' => PrintCmd(st, hasRange, rng, s)
        case 'c' => ChangeDelete(st, hasRange, rng, s, w.input, false)
        case 'd' => ChangeDelete(st, hasRange, rng, s, w.input, false)
        case '!' =>
          if hasRange then Stay(st, [Wrong])
          else Stay(st, [Shell(if |s| == 1 then "sh" else s[1..])])
        case 'e' => if hasRange then Stay(st, [Wrong]) else Edit(s, st, w.load)
        case _ => NamedCmd(st, s, w.vars)
  }

  /**
   Every command but `c` leaves the cursor on an existing line when it started
   on one and the buffer still has a line afterwards.
   */
  lemma RunKeepsCursor(p: Parsed, st: State, w: World)
    requires ParserContract(p, st.buf.lines) && LoadContract(w.load)
    requires CursorValid(st)
    requires p.Addressed? && |p.rest| >= 1 ==> p.rest[0] != 'c'
    requires |Run(p, st, w).st.buf.lines| > 0
    ensures CursorValid(Run(p, st, w).st)
  {
    var r := Run(p, st, w);
    if p.Addressed? && !(p.hasRange && p.rest == "") && p.rest != "" {
      var s := p.rest;
      if s[0] == 'w' && !p.hasRange && !st.buf.readOnly {
        match ParseWrite(s)
        case BadWrite =>
        case WriteArgs(quit, edit, name) =>
          var named := if name.Some? then st.buf.(filename := name) else st.buf;
          if edit && named.filename.Some? && w.written.Some? {
            var saved := st.(buf := named.(modified := false));
            assert r.st == Edit(s[1..], saved, w.load).st;
          }
      }
    }
  }

  /**
   Writing makes quitting possible: after `w` succeeds on a writable, named
   buffer, a plain `q` ends the loop, whatever the modified flag was before.
   */
  lemma WriteThenQuit(st: State, w: World, rng: Range)
    requires !st.buf.readOnly && st.buf.filename.Some? && w.written.Some?
    ensures var after := Run(Addressed(rng, false, "w"), st, w);
      && !after.quit
      && after.st.buf.lines == st.buf.lines
      && after.st.buf.filename == st.buf.filename
      && Run(Addressed(rng, false, "q"), after.st, w).quit
  {
    var after := Run(Addressed(rng, false, "w"), st, w);
    assert ParseWrite("w") == WriteArgs(false, false, None);
    assert after == WriteCmd(st, false, "w", w);
    assert !after.st.buf.modified;
  }

  /** A worked case: "2d" on a, b, c with the cursor on the first line. */
  lemma DeleteSecondOfThree()
    ensures var st := State(Buffer(["a", "b", "c"], false, false, None, true), 0);
      var r := Run(Addressed(Range(2, 2), true, "d"), st, World([], None, Missing, map[]));
      r.st.buf.lines == ["a", "c"] && r.st.cur == 1 && r.st.buf.modified && !r.quit && r.reports == []
  {
    var lines: seq<string> := ["a", "b", "c"];
    assert RemoveRange(lines, 2, 2) == ["a", "c"];
  }

  /**
   The code as written can leave the cursor past the end: five lines, cursor
   on the last, "1,2d" leaves three lines and the cursor still at index 4.
   The corrected rule puts it on the new last line.
   */
  lemma RangeDeleteCursorEscapes()
    ensures var st := State(Buffer(["a", "b", "c", "d", "e"], false, false, None, true), 4);
      && CursorValid(st)
      && DeleteLines(st, true, Range(1, 2), "d", true) == Removed(State(Buffer(["c", "d", "e"], true, false, None, true), 4))
      && !CursorValid(DeleteLines(st, true, Range(1, 2), "d", true).st)
      && DeleteLines(st, true, Range(1, 2), "d", false) == Removed(State(Buffer(["c", "d", "e"], true, false, None, true), 2))
  {
    var lines: seq<string> := ["a", "b", "c", "d", "e"];
    assert RemoveRange(lines, 1, 2) == ["c", "d", "e"];
  }

  /**
   The code as written changes a read-only buffer: `c` on the one-line
   buffer "a" with the line "x" typed inserts it and marks the buffer
   modified, after reporting that the buffer is read-only. The corrected
   command only reports.
   */
  lemma ChangeOnReadOnlyAsWritten()
    ensures var st := State(Buffer(["a"], false, true, None, true), 0);
      var input := [Collector.Last("x\n")];
      && ChangeDelete(st, false, Range(1, 1), "c", input, true)
           == Stay(State(Buffer(["x", "a"], true, true, None, true), 0), [ReadOnlyErr])
      && ChangeDelete(st, false, Range(1, 1), "c", input, false) == Stay(st, [ReadOnlyErr])
  {
    var input := [Collector.Last("x\n")];
    Collector.LastEndsCollection("x\n", []);
    assert input == [Collector.Last("x\n")] + [];
    assert Collector.CutAtNewline("x\n") == "x";
    assert InsertBefore(["a"], 0, ["x"]) == ["x", "a"];
  }
}

=== FILE: cursor.dfy ===
/**
 The cursor and viewport engine of the curses front end (gui/gui.c): the
 mapping from a character index of a line to a screen column, and the
 motions that clamp the cursor (pos_y, pos_x) and scroll the window
 (pos_top, pos_left). The terminal size, the tab stop, the showtabs setting
 and the scroll-off margin are parameters; drawing is not modelled.
 */
module Cursor {
  import opened Basics

  /** LINES, COLS, global_settings.tabstop and .showtabs, and SCROLL_OFF. */
  datatype Term = Term(lines: int, cols: int, tabstop: int, showTabs: bool, scrollOff: int)

  /** A usable terminal: at least one row and column, a positive tab stop, a non-negative margin. */
  predicate TermOk(t: Term)
  {
    t.lines >= 1 && t.cols >= 1 && t.tabstop >= 1 && t.scrollOff >= 0
  }

  /** The cursor and window position: pos_y, pos_x, pos_top, pos_left. */
  datatype View = View(y: int, x: int, top: int, left: int)

  // ------------------------------------------------------------ columns

  /** Columns a character takes on screen when drawn from column `col`. */
  function Advance(col: int, c: char, t: Term): (r: int)
    requires t.tabstop >= 1
    ensures col < r
    ensures c == '\t' && !t.showTabs && col >= 0 ==>
      r % t.tabstop == 0 && r - col <= t.tabstop
    ensures c != '\t' || t.showTabs ==> r - col == (if IsPrint(c) then 1 else 2)
  {
    if c == '\t' then
      if t.showTabs then col + 2
      else
        NextTabStop(col, t.tabstop);
        col + (t.tabstop - col % t.tabstop)
    else if !IsPrint(c) then col + 2
    else col + 1
  }

  /** A tab drawn as spaces ends on the next multiple of the tab stop. */
  lemma NextTabStop(col: int, ts: int)
    requires ts >= 1
    ensures 1 <= ts - col % ts <= ts
    ensures (col + (ts - col % ts)) % ts == 0
  {
    var q := col / ts;
    assert col == ts * q + col % ts;
    var r := col + (ts - col % ts);
    assert r == ts * (q + 1);
    MultipleHasNoRemainder(q + 1, ts);
  }

  lemma MultipleHasNoRemainder(a: int, ts: int)
    requires ts >= 1
    ensures (ts * a) % ts == 0
  {
    var b := ts * a;
    var d := a - b / ts;
    assert b == ts * (b / ts) + b % ts;
    assert ts * d == b % ts;
    assert 0 <= ts * d < ts;
  }

  /** The screen column reached after drawing all of `s` from column 0. */
  function Width(s: string, t: Term): (w: nat)
    requires t.tabstop >= 1
    decreases |s|
  {
    if |s| == 0 then 0 else Advance(Width(s[..|s| - 1], t), s[|s| - 1], t)
  }

  /** How many characters of `s` are not printable (each drawn as a two-column ^X). */
  function CountNonPrint(s: string): nat
    decreases |s|
  {
    if |s| == 0 then 0
    else CountNonPrint(s[..|s| - 1]) + (if IsPrint(s[|s| - 1]) then 0 else 1)
  }

  /**
   The visual column of logical column x in the line: the loop of
   gui_coord_to_scr, which stops at x or at the end of the line.
   */
  function VisualCol(line: string, x: int, t: Term): (c: nat)
    requires t.tabstop >= 1
    ensures Prefix(line, x) <= c
    ensures c == Width(line[..Prefix(line, x)], t)
  {
    WidthAtLeastLength(line[..Prefix(line, x)], t);
    Width(line[..Prefix(line, x)], t)
  }

  /** Every character takes at least one column. */
  lemma {:induction false} WidthAtLeastLength(s: string, t: Term)
    requires t.tabstop >= 1
    ensures |s| <= Width(s, t)
    decreases |s|
  {
    if |s| > 0 {
      WidthAtLeastLength(s[..|s| - 1], t);
    }
  }

  /** No character takes more than max(2, tabstop) columns. */
  lemma {:induction false} WidthAtMost(s: string, t: Term)
    requires t.tabstop >= 1
    ensures Width(s, t) <= |s| * Max(2, t.tabstop)
    decreases |s|
  {
    if |s| > 0 {
      WidthAtMost(s[..|s| - 1], t);
      var w := Width(s[..|s| - 1], t);
      assert Advance(w, s[|s| - 1], t) - w <= Max(2, t.tabstop);
      assert (|s| - 1) * Max(2, t.tabstop) + Max(2, t.tabstop) == |s| * Max(2, t.tabstop);
    }
  }

  /**
   Reference form: with tabs drawn as ^I, or on a line without tabs, the width
   is one column per character plus one more per non-printable character.
   */
  lemma {:induction false} WidthWithoutTabStops(s: string, t: Term)
    requires t.tabstop >= 1
    requires t.showTabs || '\t' !in s
    ensures Width(s, t) == |s| + CountNonPrint(s)
    decreases |s|
  {
    if |s| > 0 {
      var init := s[..|s| - 1];
      if !t.showTabs {
        forall j | 0 <= j < |init|
          ensures init[j] != '\t'
        {
          assert init[j] == s[j];
          assert s[j] in s;
        }
      }
      WidthWithoutTabStops(init, t);
    }
  }

  /** Drawing one more character always moves further right. */
  lemma {:induction false} WidthStrictlyGrows(s: string, k1: nat, k2: nat, t: Term)
    requires t.tabstop >= 1
    requires k1 < k2 <= |s|
    ensures Width(s[..k1], t) < Width(s[..k2], t)
    decreases k2 - k1
  {
    assert s[..k2][..k2 - 1] == s[..k2 - 1];
    assert Width(s[..k2 - 1], t) < Width(s[..k2], t);
    if k1 < k2 - 1 {
      WidthStrictlyGrows(s, k1, k2 - 1, t);
    }
  }

  /**
   The visual column never decreases as the logical column grows, and strictly
   increases while the logical column is still inside the line.
   */
  lemma VisualColMonotonic(line: string, x1: int, x2: int, t: Term)
    requires t.tabstop >= 1
    requires x1 <= x2
    ensures VisualCol(line, x1, t) <= VisualCol(line, x2, t)
    ensures x1 < x2 && 0 <= x1 < |line| ==> VisualCol(line, x1, t) < VisualCol(line, x2, t)
  {
    var k1 := Prefix(line, x1);
    var k2 := Prefix(line, x2);
    if k1 < k2 {
      WidthStrictlyGrows(line, k1, k2, t);
    }
  }

  /**
   gui_coord_to_scr: the screen position of buffer position (y, x). Without a
   line given, line y of the buffer is used, or the empty line past its end.
   */
  function CoordToScr(y: int, x: int, line: Option<string>, lines: seq<string>, v: View, t: Term): (r: (int, int))
    requires t.tabstop >= 1
    ensures var l := if line.Some? then line.value else if 0 <= y < |lines| then lines[y] else "";
      && r.0 == y - v.top
      && Prefix(l, x) <= r.1 + v.left
      && (x <= 0 || l == "" ==> r.1 == -v.left)
      && r.1 + v.left == VisualCol(l, x, t)
  {
    var l := if line.Some? then line.value else if 0 <= y < |lines| then lines[y] else "";
    (y - v.top, VisualCol(l, x, t) - v.left)
  }

  // ------------------------------------------------------------ motions

  /**
   gui_inc: move down n lines unless already on the last line, stopping at the
   last line, and raise the window top just enough to keep the cursor
   scroll-off lines above the bottom.
   */
  function Inc(v: View, n: int, nl: int, t: Term): (r: View)
    ensures r.x == v.x && r.left == v.left
    ensures v.y >= nl - 1 ==> r == v
    ensures v.y < nl - 1 ==>
      && r.y <= nl - 1
      && (v.y + n <= nl - 1 ==> r.y == v.y + n)
      && (v.y + n > nl - 1 ==> r.y == nl - 1)
      && r.y <= r.top + t.lines - 2 - t.scrollOff
    ensures r.top >= v.top
    ensures r.top != v.top ==> r.y == r.top + t.lines - 2 - t.scrollOff
  {
    if v.y < nl - 1 then
      var y := if v.y + n >= nl then nl - 1 else v.y + n;
      var top := if y > v.top + t.lines - 2 - t.scrollOff then y - t.lines + 2 + t.scrollOff else v.top;
      v.(y := y, top := top)
    else v
  }

  /**
   gui_dec: move up n lines unless already on the first line, stopping at the
   first line, and lower the window top so the cursor keeps scroll-off lines
   below it, never above line 0.
   */
  function Dec(v: View, n: int, t: Term): (r: View)
    ensures r.x == v.x && r.left == v.left
    ensures v.y <= 0 ==> r == v
    ensures v.y > 0 ==>
      && r.y == Max(v.y - n, 0)
      && r.top >= 0
      && r.top <= Max(v.top, 0)
      && (r.top == 0 || r.y - r.top >= t.scrollOff)
    ensures v.y > 0 && v.top >= 0 && r.y - v.top >= t.scrollOff ==> r.top == v.top
    ensures v.y > 0 && r.y - v.top < t.scrollOff ==> r.top == Max(r.y - t.scrollOff, 0)
  {
    if v.y > 0 then
      var y := if v.y - n < 0 then 0 else v.y - n;
      var top := if y - v.top < t.scrollOff then y - t.scrollOff else v.top;
      v.(y := y, top := if top < 0 then 0 else top)
    else v
  }

  /**
   gui_move: clamp the target line into the buffer and the target column into
   that line, scroll the window sideways only when the column is outside it,
   and move vertically through gui_inc or gui_dec.
   */
  function Move(v: View, y: int, x: int, lines: seq<string>, t: Term): (r: View)
    requires |lines| >= 1 && TermOk(t)
    ensures 0 <= r.y < |lines|
    ensures 0 <= y < |lines| ==> r.y == y
    ensures y < 0 ==> r.y == 0
    ensures y >= |lines| ==> r.y == |lines| - 1
    ensures 0 <= r.x <= LastCol(lines[r.y])
    ensures 0 <= x <= LastCol(lines[r.y]) ==> r.x == x
    ensures x < 0 ==> r.x == 0
    ensures x > LastCol(lines[r.y]) ==> r.x == LastCol(lines[r.y])
    ensures r.left <= r.x < r.left + t.cols
    ensures v.left <= r.x < v.left + t.cols ==> r.left == v.left
    ensures r.y > v.y ==> r.top >= v.top && r.y <= r.top + t.lines - 2 - t.scrollOff
    ensures r.y <= v.y && v.y > 0 ==> r.top >= 0 && (r.top == 0 || r.y - r.top >= t.scrollOff)
    ensures v.top >= 0 ==> r.top >= 0
  {
    var y1 := if y < 0 then 0 else if y >= |lines| then |lines| - 1 else y;
    var len := LastCol(lines[y1]);
    var x1 := if x < 0 then 0 else if x > len then len else x;
    var left := if x1 >= v.left + t.cols then x1 - t.cols + 1
                else if x1 < v.left then x1
                else v.left;
    var v1 := v.(left := left);
    var v2 := if y1 > v.y then Inc(v1, y1 - v.y, |lines|, t) else Dec(v1, v.y - y1, t);
    v2.(y := y1, x := x1)
  }

  /**
   Moving again to the same target changes neither the cursor nor the
   horizontal window: gui_move settles in one call.
   */
  lemma MoveSettles(v: View, y: int, x: int, lines: seq<string>, t: Term)
    requires |lines| >= 1 && TermOk(t)
    ensures var r := Move(v, y, x, lines, t);
      var r2 := Move(r, y, x, lines, t);
      r2.y == r.y && r2.x == r.x && r2.left == r.left
  {
  }

  /** The scrolls that re-clamp the cursor into the window afterwards (gui_scroll's `check`). */
  predicate Checked(s: Scroll)
  {
    s.PageUp? || s.PageDown? || s.HalfUp? || s.HalfDown? || s.SingleUp? || s.SingleDown?
  }

  /** The lowest line the cursor may sit on after a checked scroll. */
  function WindowLow(top: int, t: Term): int
  {
    top + (if top != 0 then t.scrollOff else 0)
  }

  /** One past the highest line the cursor may sit on after a checked scroll. */
  function WindowHigh(top: int, t: Term): int
  {
    top + t.lines - 1 - t.scrollOff - 1
  }

  /**
   The switch of gui_scroll: the new pos_top (before it is kept
   non-negative), the cursor line, and whether the cursor is to be pulled
   back into the window afterwards (the scroll acted and is a checked one).
   */
  function ScrollTarget(v: View, s: Scroll, nl: int, t: Term): (r: (int, int, bool))
    ensures r.2 ==> Checked(s)
    ensures s.PageUp? || s.PageDown? || s.HalfUp? || s.HalfDown? ==> r.2
    ensures s.SingleDown? ==> (r.2 <==> v.top < nl - 1 - t.scrollOff)
    ensures s.SingleUp? ==> (r.2 <==> v.top != 0)
    ensures !r.2 ==> r.1 == v.y
    ensures !r.2 && Checked(s) ==> r.0 == v.top
    ensures s.CursorTop? ==> r.0 == Max(v.y - t.scrollOff, 0)
  {
    match s
    case SingleDown =>
      if v.top < nl - 1 - t.scrollOff then
        var top := v.top + t.scrollOff;
        (top, if v.y < top + t.scrollOff then top + t.scrollOff else v.y, true)
      else (v.top, v.y, false)
    case SingleUp =>
      if v.top != 0 then (v.top - t.scrollOff, v.y, true) else (v.top, v.y, false)
    case PageUp => (v.top - t.lines, v.y, true)
    case PageDown => (v.top + t.lines, v.y, true)
    case HalfUp => (v.top - t.lines / 2, v.y, true)
    case HalfDown => (v.top + t.lines / 2, v.y, true)
    case CursorTop => (Max(v.y - t.scrollOff, 0), v.y, false)
    case CursorBottom => (v.y - t.lines + 2 + t.scrollOff, v.y, false)
    case CursorMiddle => (v.y - t.lines / 2, v.y, false)
  }

  /**
   The first part of gui_scroll, before its closing gui_move: adjust pos_top
   for the request, keep it non-negative, and for the line, page and half-page
   scrolls that acted pull pos_y back into the window. The number is the
   return value: 1 when a line, page or half-page scroll acted, else 0.
   */
  function ScrollWindow(v: View, s: Scroll, nl: int, t: Term): (r: (View, int))
    requires TermOk(t)
    ensures r.0.x == v.x && r.0.left == v.left
    ensures r.0.top >= 0
    ensures s.CursorTop? || s.CursorBottom? || s.CursorMiddle? ==> r.1 == 0 && r.0.y == v.y
    ensures s.PageUp? || s.PageDown? || s.HalfUp? || s.HalfDown? ==> r.1 == 1
    ensures s.SingleDown? ==> (r.1 == 1 <==> v.top < nl - 1 - t.scrollOff)
    ensures s.SingleUp? ==> (r.1 == 1 <==> v.top != 0)
    ensures r.1 == 0 && Checked(s) ==> r.0.y == v.y && r.0.top == Max(v.top, 0)
    ensures r.1 == 1 ==>
      && r.0.y >= WindowLow(r.0.top, t)
      && (WindowLow(r.0.top, t) <= WindowHigh(r.0.top, t) ==> r.0.y <= WindowHigh(r.0.top, t))
    ensures s.CursorTop? ==> r.0.top == Max(v.y - t.scrollOff, 0)
  {
    var (top, y, check) := ScrollTarget(v, s, nl, t);
    var top1 := if top < 0 then 0 else top;
    var y1 := if check && y >= WindowHigh(top1, t) + 1 then WindowHigh(top1, t) else y;
    var y2 := if check && y1 < WindowLow(top1, t) then WindowLow(top1, t) else y1;
    (v.(top := top1, y := y2), if check then 1 else 0)
  }

  /**
   gui_scroll: scroll the window, then move to the (possibly pulled in) cursor
   position, which clamps it into the buffer again. The window top is never
   left negative.
   */
  function GuiScroll(v: View, s: Scroll, lines: seq<string>, t: Term): (r: (View, int))
    requires |lines| >= 1 && TermOk(t)
    ensures r.0.top >= 0
    ensures 0 <= r.0.y < |lines|
    ensures 0 <= r.0.x <= LastCol(lines[r.0.y])
    ensures r.0.left <= r.0.x < r.0.left + t.cols
    ensures r.1 == ScrollWindow(v, s, |lines|, t).1
    ensures s.CursorTop? || s.CursorBottom? || s.CursorMiddle? ==> r.1 == 0
  {
    var (w, ret) := ScrollWindow(v, s, |lines|, t);
    (Move(w, w.y, w.x, lines, t), ret)
  }
}

=== FILE: keyinput.dfy ===
/**
 The key input of the curses front end (gui/gui.c): a push-back stack of
 keys that is read before the terminal, and the operations that push onto
 it (gui_ungetch, gui_queue), look at it (gui_peekunget, gui_peekch) and
 pop it (the stack part of gui_getch).

 The terminal is a finite sequence of key codes; once it is exhausted no
 key can be read. The stack's storage growth is not modelled, only its
 contents.
 */
module KeyInput {
  import opened Basics

  /** CTRL_AND('c'): the key that makes gui_getch raise an interrupt before returning it. */
  const Interrupt: int := 3

  /** The window-resize code and the read error that gui_getch reads past. */
  predicate Skipped(c: int)
  {
    c == 410 || c == -1
  }

  /**
   A value stored in a `char` slot: C's conversion to signed 8-bit, which
   keeps the value modulo 256 in the range -128..127.
   */
  function SignedChar(c: int): (r: int)
    ensures -128 <= r < 128
    ensures -128 <= c < 128 ==> r == c
    ensures (r - c) % 256 == 0
  {
    (c + 128) % 256 - 128
  }

  /** A `char` value: what a C string's bytes can hold. */
  predicate IsCharValue(c: int)
  {
    -128 <= c < 128
  }

  /**
   The input state: the push-back stack, its top last (unget_buf up to
   unget_i), and the keys the terminal has yet to deliver.
   */
  datatype Input = Input(stack: seq<int>, keys: seq<int>)

  /** How many keys remain to be read, pushed back or not. */
  function Pending(inp: Input): nat
  {
    |inp.stack| + |inp.keys|
  }

  /** gui_ungetch with a stack that holds whole key codes. */
  function Ungetch(inp: Input, c: int): (r: Input)
    ensures r.keys == inp.keys
    ensures |r.stack| == |inp.stack| + 1
    ensures r.stack[..|inp.stack|] == inp.stack && r.stack[|inp.stack|] == c
  {
    inp.(stack := inp.stack + [c])
  }

  /** gui_ungetch as written: the key code is stored in a `char` slot. */
  function UngetchAsWritten(inp: Input, c: int): (r: Input)
    ensures r.keys == inp.keys
    ensures |r.stack| == |inp.stack| + 1
    ensures r.stack[..|inp.stack|] == inp.stack && r.stack[|inp.stack|] == SignedChar(c)
    ensures IsCharValue(c) ==> r == Ungetch(inp, c)
  {
    inp.(stack := inp.stack + [SignedChar(c)])
  }

  /**
   gui_queue: the characters of `s` are pushed from last to first, so that
   the first character ends on top.
   */
  function Queue(inp: Input, s: seq<int>): (r: Input)
    ensures r.keys == inp.keys
    ensures |r.stack| == |inp.stack| + |s|
    ensures r.stack[..|inp.stack|] == inp.stack
    ensures forall k :: 0 <= k < |s| ==> r.stack[|r.stack| - 1 - k] == s[k]
    decreases |s|
  {
    if |s| == 0 then inp else Ungetch(Queue(inp, s[1..]), s[0])
  }

  /** gui_queue as written: each character goes through gui_ungetch's `char` slot. */
  function QueueAsWritten(inp: Input, s: seq<int>): (r: Input)
    ensures r.keys == inp.keys
    ensures |r.stack| == |inp.stack| + |s|
    ensures r.stack[..|inp.stack|] == inp.stack
    ensures forall k :: 0 <= k < |s| ==> r.stack[|r.stack| - 1 - k] == SignedChar(s[k])
    decreases |s|
  {
    if |s| == 0 then inp else UngetchAsWritten(QueueAsWritten(inp, s[1..]), s[0])
  }

  /** gui_peekunget: the key on top of the stack, or 0 when nothing is pushed back. */
  function PeekUnget(inp: Input): (c: int)
    ensures |inp.stack| == 0 ==> c == 0
    ensures |inp.stack| > 0 ==> c == inp.stack[|inp.stack| - 1]
  {
    if |inp.stack| == 0 then 0 else inp.stack[|inp.stack| - 1]
  }

  /**
   gui_getch: pop the stack when it is non-empty, otherwise read the
   terminal, where a carriage return reads as a newline; a resize code or a
   read error is passed over and the next key read. None when no key is left.
   */
  function GetCh(inp: Input): (r: Option<(int, Input)>)
    ensures r.Some? ==> !Skipped(r.value.0) && Pending(r.value.1) < Pending(inp)
    ensures r.Some? ==>
      |r.value.1.keys| <= |inp.keys| && r.value.1.keys == inp.keys[|inp.keys| - |r.value.1.keys|..]
    ensures |inp.stack| > 0 && !Skipped(inp.stack[|inp.stack| - 1]) ==>
      r == Some((inp.stack[|inp.stack| - 1], inp.(stack := inp.stack[..|inp.stack| - 1])))
    ensures |inp.stack| == 0 && |inp.keys| > 0 && !Skipped(inp.keys[0]) ==>
      r == Some((if inp.keys[0] == 13 then 10 else inp.keys[0], Input([], inp.keys[1..])))
    ensures Pending(inp) == 0 ==> r.None?
    decreases Pending(inp)
  {
    if |inp.stack| > 0 then
      var c := inp.stack[|inp.stack| - 1];
      var rest := inp.(stack := inp.stack[..|inp.stack| - 1]);
      if Skipped(c) then GetCh(rest) else Some((c, rest))
    else if |inp.keys| > 0 then
      var c := if inp.keys[0] == 13 then 10 else inp.keys[0];
      var rest := Input([], inp.keys[1..]);
      if Skipped(c) then GetCh(rest) else Some((c, rest))
    else None
  }

  /** gui_peekch with a stack of whole key codes: read a key and push it back. */
  function PeekCh(inp: Input): (r: Option<(int, Input)>)
    ensures GetCh(inp).None? <==> r.None?
    ensures r.Some? ==> r.value.0 == GetCh(inp).value.0
    ensures r.Some? ==> PeekUnget(r.value.1) == r.value.0
  {
    match GetCh(inp)
    case None => None
    case Some((c, rest)) => Some((c, Ungetch(rest, c)))
  }

  /** gui_peekch as written: the key is pushed back through the `char` slot. */
  function PeekChAsWritten(inp: Input): (r: Option<(int, Input)>)
    ensures GetCh(inp).None? <==> r.None?
    ensures r.Some? ==> r.value.0 == GetCh(inp).value.0
  {
    match GetCh(inp)
    case None => None
    case Some((c, rest)) => Some((c, UngetchAsWritten(rest, c)))
  }

  /** Reads n keys in order with gui_getch; None if the input runs out first. */
  function GetN(inp: Input, n: nat): (r: Option<(seq<int>, Input)>)
    ensures r.Some? ==> |r.value.0| == n
    decreases n
  {
    if n == 0 then Some(([], inp))
    else match GetCh(inp)
      case None => None
      case Some((c, rest)) =>
        match GetN(rest, n - 1)
        case None => None
        case Some((cs, last)) => Some(([c] + cs, last))
  }

  /**
   Queueing keys and reading as many back returns them in their original
   order and leaves the input as it was before the queue.
   */
  lemma {:induction false} QueueReadsBack(inp: Input, s: seq<int>)
    requires forall k :: 0 <= k < |s| ==> !Skipped(s[k])
    ensures GetN(Queue(inp, s), |s|) == Some((s, inp))
    decreases |s|
  {
    if |s| > 0 {
      var q := Queue(inp, s);
      var tail := Queue(inp, s[1..]);
      assert q.stack[..|q.stack| - 1] == tail.stack;
      assert GetCh(q) == Some((s[0], tail));
      QueueReadsBack(inp, s[1..]);
      assert [s[0]] + s[1..] == s;
    }
  }

  /** Peeking does not consume: reading after a peek gives what reading alone would. */
  lemma PeekThenGet(inp: Input)
    requires GetCh(inp).Some?
    ensures PeekCh(inp).Some?
    ensures GetCh(PeekCh(inp).value.1) == GetCh(inp)
  {
    var (c, rest) := GetCh(inp).value;
    var u := Ungetch(rest, c);
    assert u.stack[..|u.stack| - 1] == rest.stack;
  }

  /** For characters (values -128..127) the stack as written behaves like the corrected one. */
  lemma {:induction false} QueueAsWrittenOnChars(inp: Input, s: seq<int>)
    requires forall k :: 0 <= k < |s| ==> IsCharValue(s[k])
    ensures QueueAsWritten(inp, s) == Queue(inp, s)
    decreases |s|
  {
    if |s| > 0 {
      QueueAsWrittenOnChars(inp, s[1..]);
    }
  }

  /**
   Peeking a key code outside the `char` range through the stack as written
   changes the next key read: the truncated code comes back instead.
   */
  lemma PeekAsWrittenChangesKey(inp: Input)
    requires GetCh(inp).Some? && !IsCharValue(GetCh(inp).value.0)
    requires !Skipped(SignedChar(GetCh(inp).value.0))
    ensures PeekChAsWritten(inp).Some?
    ensures GetCh(PeekChAsWritten(inp).value.1).Some?
    ensures GetCh(PeekChAsWritten(inp).value.1).value.0 != GetCh(inp).value.0
  {
  }

  /**
   A concrete input: peeking the up-arrow key (259) as written, then reading,
   gives 3, the interrupt key, in place of the arrow.
   */
  lemma PeekUpArrowAsWritten()
    ensures PeekChAsWritten(Input([], [259])) == Some((259, Input([3], [])))
    ensures GetCh(Input([3], [])) == Some((Interrupt, Input([], [])))
    ensures PeekCh(Input([], [259])) == Some((259, Input([259], [])))
    ensures GetCh(Input([259], [])) == Some((259, Input([], [])))
  {
    var arrow := Input([], [259]);
    var three := Input([3], []);
    var kept := Input([259], []);
    assert GetCh(arrow) == Some((259, Input([], []))) by {
      assert arrow.keys[1..] == [];
    }
    assert UngetchAsWritten(Input([], []), 259) == three by {
      assert SignedChar(259) == 3;
    }
    assert GetCh(three) == Some((3, Input([], []))) by {
      assert three.stack[..0] == [];
    }
    assert GetCh(kept) == Some((259, Input([], []))) by {
      assert kept.stack[..0] == [];
    }
  }
}

=== FILE: lineedit.dfy ===
/**
 The line editor of the curses front end (gui_getstr in gui/gui.c): keys are
 read with gui_getch and edit a line of text until a key ends the input.
 The text is kept as the `char` values the editor stores; the cursor
 movements and echo that only repaint the screen are not modelled, and the
 completion key calls no completion function.
 */
module LineEdit {
  import opened Basics
  import opened KeyInput

  /** CTRL_AND('U'): erase the whole line. */
  const KillLine: int := 21
  /** CTRL_AND('W'): erase back over the last word. */
  const KillWord: int := 23
  /** CTRL_AND('['): cancel. */
  const Escape: int := 27
  /** CTRL_AND('N'): completion, which without a completion function does nothing. */
  const Complete: int := 14
  const Newline: int := 10

  /** The erase keys: CTRL_AND('?'), CTRL_AND('H'), KEY_BACKSPACE and DEL. */
  predicate IsErase(c: int)
  {
    c == 31 || c == 8 || c == 263 || c == 127
  }

  /** The options of one read (struct gui_read_opts) that change what is returned. */
  datatype Opts = Opts(bspcCancel: bool, textw: int)

  /** What one key does: the text goes on being edited, or input ends with a return value. */
  datatype Step = Edit(text: seq<int>) | Finish(ret: int, text: seq<int>)

  /**
   From index p, walk back over characters whose isspace() equals `space`,
   never past index 1: the loops of the word-erase key.
   */
  function SkipBack(buf: seq<int>, p: nat, space: bool): (q: nat)
    requires p < |buf|
    ensures q <= p
    ensures forall j :: q < j <= p ==> IsSpace(buf[j]) == space
    ensures q > 0 ==> IsSpace(buf[q]) != space
    decreases p
  {
    if p > 0 && IsSpace(buf[p]) == space then SkipBack(buf, p - 1, space) else p
  }

  /**
   The word-erase key: skip trailing blanks, then the word before them; the
   text is cut at the blank that precedes that word, or emptied.
   */
  function RubOutWord(buf: seq<int>): (r: seq<int>)
    ensures |r| <= |buf| && r == buf[..|r|]
    ensures |buf| > 0 ==> |r| < |buf|
    ensures |r| > 0 ==> IsSpace(buf[|r|])
  {
    if |buf| == 0 then buf
    else buf[..SkipBack(buf, SkipBack(buf, |buf| - 1, true), false)]
  }

  /** A key that is typed into the text as itself: a `char` value none of the editing keys. */
  predicate Typable(c: int)
  {
    && IsCharValue(c)
    && c != KillLine && c != KillWord && c != Escape && c != Complete
    && c != Newline && c != 13 && !IsErase(c) && !Skipped(c)
  }

  /** Whether typing one more character into `text` ends the input (the textw limit). */
  predicate Overfull(n: int, o: Opts)
  {
    o.textw != 0 && n > o.textw
  }

  /** The effect of one key gui_getch returned on the text typed so far. */
  function Key(text: seq<int>, c: int, o: Opts): (r: Step)
    ensures c == KillLine ==> r == Edit([])
    ensures c == KillWord ==> r == Edit(RubOutWord(text))
    ensures IsErase(c) && |text| > 0 ==> r == Edit(text[..|text| - 1])
    ensures IsErase(c) && |text| == 0 ==> r == (if o.bspcCancel then Finish(1, []) else Edit([]))
    ensures c == Escape ==> r == Finish(1, text)
    ensures c == Newline ==> r == Finish(0, text)
    ensures c == Complete ==> r == Edit(text)
    ensures r.Finish? ==> r.ret == 0 || r.ret == 1
    ensures Typable(c) ==> r.text == text + [c]
    ensures Typable(c) ==> (r.Finish? <==> Overfull(|text| + 1, o)) && (r.Finish? ==> r.ret == 0)
  {
    if c == KillLine then Edit([])
    else if c == KillWord then Edit(RubOutWord(text))
    else if IsErase(c) then
      if |text| > 0 then Edit(text[..|text| - 1])
      else if o.bspcCancel then Finish(1, text)
      else Edit(text)
    else if c == Escape then Finish(1, text)
    else if c == Newline then Finish(0, text)
    else if c == Complete then Edit(text)
    else
      var t := text + [SignedChar(c)];
      if Overfull(|t|, o) then Finish(0, t) else Edit(t)
  }

  /** The outcome of gui_getstr: the return value, the text and the input left; or the keys ran out. */
  datatype Line = Entered(ret: int, text: seq<int>, rest: Input) | OutOfKeys(text: seq<int>)

  /** The reading loop of gui_getstr, from the text typed so far. */
  function Collect(inp: Input, text: seq<int>, o: Opts): (r: Line)
    requires o.textw <= 0 || |text| <= o.textw
    ensures r.Entered? ==> r.ret == 0 || r.ret == 1
    ensures o.textw > 0 ==> |r.text| <= o.textw + 1
    ensures r.Entered? ==> Pending(r.rest) < Pending(inp)
    decreases Pending(inp)
  {
    match GetCh(inp)
    case None => OutOfKeys(text)
    case Some((c, rest)) =>
      match Key(text, c, o)
      case Finish(ret, t) => Entered(ret, t, rest)
      case Edit(t) =>
        assert o.textw <= 0 || |t| <= o.textw;
        Collect(rest, t, o)
  }

  /** gui_getstr: the text starts empty. */
  function GetStr(inp: Input, o: Opts): (r: Line)
    ensures r.Entered? ==> r.ret == 0 || r.ret == 1
    ensures o.textw > 0 ==> |r.text| <= o.textw + 1
  {
    Collect(inp, [], o)
  }

  /**
   Ordinary characters typed on the terminal are appended to the text one by
   one, in order, while the text width allows.
   */
  lemma {:induction false} TypedKeys(pre: seq<int>, s: seq<int>, more: seq<int>, o: Opts)
    requires forall k :: 0 <= k < |s| ==> Typable(s[k])
    requires o.textw == 0 || |pre| + |s| <= o.textw
    ensures Collect(Input([], s + more), pre, o) == Collect(Input([], more), pre + s, o)
    decreases |s|
  {
    if |s| == 0 {
      assert s + more == more;
      assert pre + s == pre;
    } else {
      var inp := Input([], s + more);
      assert inp.keys[0] == s[0];
      assert inp.keys[1..] == s[1..] + more;
      assert GetCh(inp) == Some((s[0], Input([], s[1..] + more)));
      assert Key(pre, s[0], o) == Edit(pre + [s[0]]);
      TypedKeys(pre + [s[0]], s[1..], more, o);
      assert pre + [s[0]] + s[1..] == pre + s;
    }
  }

  /**
   Typing a line of ordinary characters and a newline on the terminal makes
   gui_getstr return 0 with exactly that line, when it fits in the text width.
   */
  lemma EnterLine(s: seq<int>, more: seq<int>, o: Opts)
    requires forall k :: 0 <= k < |s| ==> Typable(s[k])
    requires o.textw == 0 || |s| <= o.textw
    ensures GetStr(Input([], s + [Newline] + more), o) == Entered(0, s, Input([], more))
  {
    TypedKeys([], s, [Newline] + more, o);
    assert s + [Newline] + more == s + ([Newline] + more);
    assert [] + s == s;
    var inp := Input([], [Newline] + more);
    assert inp.keys[1..] == more;
    assert GetCh(inp) == Some((Newline, Input([], more)));
  }

  /**
   With a positive text width, the character that takes the text past the
   width ends the input with return value 0; it is kept in the text.
   */
  lemma WidthEndsInput(s: seq<int>, more: seq<int>, o: Opts)
    requires o.textw > 0 && |s| == o.textw + 1
    requires forall k :: 0 <= k < |s| ==> Typable(s[k])
    ensures GetStr(Input([], s + more), o) == Entered(0, s, Input([], more))
  {
    var w := o.textw;
    var head := s[..w];
    forall k | 0 <= k < |head|
      ensures Typable(head[k])
    {
      assert head[k] == s[k];
    }
    TypedKeys([], head, [s[w]] + more, o);
    assert s + more == head + ([s[w]] + more);
    assert [] + head == head;
    var inp := Input([], [s[w]] + more);
    assert inp.keys[0] == s[w];
    assert inp.keys[1..] == more;
    assert GetCh(inp) == Some((s[w], Input([], more)));
    assert head + [s[w]] == s;
    assert Key(head, s[w], o) == Finish(0, s);
  }

  /** An erase key undoes the character typed just before it. */
  lemma EraseUndoesTyping(text: seq<int>, c: int, e: int, o: Opts)
    requires Typable(c) && IsErase(e) && !Overfull(|text| + 1, o)
    ensures Key(text, c, o) == Edit(text + [c])
    ensures Key(Key(text, c, o).text, e, o) == Edit(text)
  {
    assert (text + [c])[..|text|] == text;
  }

  /** After the line-erase key the typed text is forgotten: input goes on as if from the start. */
  lemma KillLineForgets(text: seq<int>, more: seq<int>, o: Opts)
    requires o.textw <= 0 || |text| <= o.textw
    ensures Collect(Input([], [KillLine] + more), text, o) == GetStr(Input([], more), o)
  {
    var inp := Input([], [KillLine] + more);
    assert inp.keys[1..] == more;
    assert GetCh(inp) == Some((KillLine, Input([], more)));
  }

  /**
   The word-erase key removes the last word together with the blanks after
   it and the one blank before it.
   */
  lemma {:induction false} RubOutLastWord(w1: seq<int>, w2: seq<int>, sp: seq<int>)
    requires |w2| > 0
    requires forall k :: 0 <= k < |w2| ==> !IsSpace(w2[k])
    requires forall k :: 0 <= k < |sp| ==> IsSpace(sp[k])
    ensures RubOutWord(w1 + [32] + w2 + sp) == w1
  {
    var buf := w1 + [32] + w2 + sp;
    var last := |w1| + |w2|;
    assert buf[last] == w2[|w2| - 1];
    forall j | last < j < |buf|
      ensures IsSpace(buf[j])
    {
      assert buf[j] == sp[j - last - 1];
    }
    var q1 := SkipBack(buf, |buf| - 1, true);
    assert !IsSpace(buf[last]);
    assert q1 == last;
    forall j | |w1| < j <= last
      ensures !IsSpace(buf[j])
    {
      assert buf[j] == w2[j - |w1| - 1];
    }
    assert buf[|w1|] == 32;
    var q2 := SkipBack(buf, q1, false);
    assert IsSpace(buf[|w1|]);
    assert q2 == |w1|;
    assert buf[..|w1|] == w1;
  }
}

=== FILE: linestore.dfy ===
/**
 The line store: a buffer of text lines plus its flags. The bodies of the
 buffer_* operations are not part of this model; the splice and removal
 functions below are the semantics the command interpreter assumes of them,
 stated over sequences with 0-based indices (buffer_getindex) and 1-based
 inclusive ranges (buffer_remove_range).
 */
module LineStore {
  import opened Basics

  /** A buffer: its lines in document order and the metadata the commands consult. */
  datatype Buffer = Buffer(
    lines: seq<string>,
    modified: bool,
    readOnly: bool,
    filename: Option<string>,
    eol: bool)   // whether the loaded text ended with a line terminator

  /** A fresh buffer as newemptybuffer() builds it: one empty line, nothing else set. */
  function EmptyBuffer(): (b: Buffer)
    ensures b.lines == [""] && !b.modified && !b.readOnly && b.filename.None?
  {
    Buffer([""], false, false, None, true)
  }

  /** buffer_getindex(b, i) is non-NULL exactly when this holds. */
  predicate HasIndex(lines: seq<string>, i: int)
  {
    0 <= i < |lines|
  }

  /**
   buffer_insertlistafter: the block goes right after line `at`; without such
   a line the anchor is the tail sentinel and the block is appended.
   */
  function InsertAfter(lines: seq<string>, at: int, block: seq<string>): (r: seq<string>)
    ensures |r| == |lines| + |block|
    ensures HasIndex(lines, at) ==>
      && (forall i :: 0 <= i <= at ==> r[i] == lines[i])
      && (forall k :: 0 <= k < |block| ==> r[at + 1 + k] == block[k])
      && (forall i :: at < i < |lines| ==> r[i + |block|] == lines[i])
    ensures !HasIndex(lines, at) ==> r[..|lines|] == lines && r[|lines|..] == block
  {
    if HasIndex(lines, at) then lines[..at + 1] + block + lines[at + 1..] else lines + block
  }

  /**
   buffer_insertlistbefore: the block goes right before line `at`; without
   such a line the anchor is the tail sentinel and the block is appended.
   */
  function InsertBefore(lines: seq<string>, at: int, block: seq<string>): (r: seq<string>)
    ensures |r| == |lines| + |block|
    ensures HasIndex(lines, at) ==>
      && (forall i :: 0 <= i < at ==> r[i] == lines[i])
      && (forall k :: 0 <= k < |block| ==> r[at + k] == block[k])
      && (forall i :: at <= i < |lines| ==> r[i + |block|] == lines[i])
    ensures !HasIndex(lines, at) ==> r[..|lines|] == lines && r[|lines|..] == block
  {
    if HasIndex(lines, at) then lines[..at] + block + lines[at..] else lines + block
  }

  /** A 1-based inclusive range of existing lines, as the address parser guarantees. */
  predicate ValidRange(lines: seq<string>, start: int, end: int)
  {
    1 <= start <= end <= |lines|
  }

  /** buffer_remove_range: lines start..end (1-based, inclusive) are removed. */
  function RemoveRange(lines: seq<string>, start: int, end: int): (r: seq<string>)
    requires ValidRange(lines, start, end)
    ensures |r| == |lines| - (end - start + 1)
    ensures forall i :: 0 <= i < start - 1 ==> r[i] == lines[i]
    ensures forall i :: start - 1 <= i < |r| ==> r[i] == lines[i + (end - start + 1)]
  {
    lines[..start - 1] + lines[end..]
  }

  /** buffer_remove: the line at 0-based index `at` is removed. */
  function Remove(lines: seq<string>, at: int): (r: seq<string>)
    requires HasIndex(lines, at)
    ensures |r| == |lines| - 1
    ensures forall i :: 0 <= i < at ==> r[i] == lines[i]
    ensures forall i :: at <= i < |r| ==> r[i] == lines[i + 1]
  {
    RemoveRange(lines, at + 1, at + 1)
  }

  /** Removing a block that was just spliced in after line `at` gives the old lines back. */
  lemma InsertAfterThenRemove(lines: seq<string>, at: int, block: seq<string>)
    requires HasIndex(lines, at) && |block| > 0
    ensures ValidRange(InsertAfter(lines, at, block), at + 2, at + 1 + |block|)
    ensures RemoveRange(InsertAfter(lines, at, block), at + 2, at + 1 + |block|) == lines
  {
    var r := InsertAfter(lines, at, block);
    var back := RemoveRange(r, at + 2, at + 1 + |block|);
    assert |back| == |lines|;
    forall i | 0 <= i < |lines|
      ensures back[i] == lines[i]
    {
      if i > at {
        assert back[i] == r[i + |block|];
      }
    }
  }

  /** Removing a block that was just spliced in before line `at` gives the old lines back. */
  lemma InsertBeforeThenRemove(lines: seq<string>, at: int, block: seq<string>)
    requires HasIndex(lines, at) && |block| > 0
    ensures ValidRange(InsertBefore(lines, at, block), at + 1, at + |block|)
    ensures RemoveRange(InsertBefore(lines, at, block), at + 1, at + |block|) == lines
  {
    var r := InsertBefore(lines, at, block);
    var back := RemoveRange(r, at + 1, at + |block|);
    assert |back| == |lines|;
    forall i | 0 <= i < |lines|
      ensures back[i] == lines[i]
    {
      if i >= at {
        assert back[i] == r[i + |block|];
      }
    }
  }
}

=== FILE: padview.dfy ===
/**
 The pad viewport of the ncurses front end (ncurses/view.c): the cursor
 (padx, pady) in buffer coordinates and the first buffer line on screen
 (padtop), moved and scrolled over a buffer of lines. The screen shows
 MAX_Y = LINES - 1 buffer lines, rows padtop .. padtop + MAX_Y - 1; MAX_Y is
 a parameter, as is the tab stop. Painting and the ncurses calls are not
 modelled.
 */
module PadView {
  import opened Basics

  /** The pad cursor and window: padx, pady and padtop. */
  datatype Pad = Pad(x: int, y: int, top: int)

  /**
   The state the view keeps between calls: the cursor is on a line of the
   buffer and on one of the MAX_Y visible rows, and padx is not negative.
   */
  predicate Valid(p: Pad, lines: seq<string>, maxY: int)
  {
    maxY >= 1 && 0 <= p.top <= p.y < |lines| && p.y < p.top + maxY && p.x >= 0
  }

  /** Whether row y is one of the MAX_Y rows on screen. */
  predicate OnScreen(y: int, top: int, maxY: int)
  {
    top <= y < top + maxY
  }

  /** clippadx: pull padx back onto the last character of line pady. */
  function ClipX(p: Pad, lines: seq<string>): (r: Pad)
    requires 0 <= p.y < |lines|
    ensures r.y == p.y && r.top == p.top
    ensures r.x <= LastCol(lines[p.y])
    ensures p.x <= LastCol(lines[p.y]) ==> r == p
    ensures p.x > LastCol(lines[p.y]) ==> r.x == LastCol(lines[p.y])
  {
    if p.x > LastCol(lines[p.y]) then p.(x := LastCol(lines[p.y])) else p
  }

  /** clippady with the bound the rest of the view uses: move padtop so that pady is on screen. */
  function ClipY(p: Pad, maxY: int): (r: Pad)
    ensures r.x == p.x && r.y == p.y
    ensures maxY >= 1 ==> OnScreen(r.y, r.top, maxY)
    ensures OnScreen(p.y, p.top, maxY) ==> r == p
    ensures p.y < p.top ==> r.top == p.y
    ensures maxY >= 1 && p.y >= p.top + maxY ==> r.top == p.y - maxY + 1
  {
    if p.y < p.top then p.(top := p.y)
    else if p.y >= p.top + maxY then p.(top := p.y - maxY + 1)
    else p
  }

  /** clippady as written: a cursor on row padtop + MAX_Y, just below the screen, is left there. */
  function ClipYAsWritten(p: Pad, maxY: int): (r: Pad)
    ensures r.x == p.x && r.y == p.y
    ensures maxY >= 0 && p.y == p.top + maxY ==> r == p
  {
    if p.y < p.top then p.(top := p.y)
    else if p.y > p.top + maxY then p.(top := p.y - maxY + 1)
    else p
  }

  /** The row padyinrange moves pady to, with the bound the rest of the view uses. */
  function YInRange(y: int, top: int, maxY: int): (r: int)
    ensures maxY >= 1 ==> OnScreen(r, top, maxY)
    ensures OnScreen(y, top, maxY) ==> r == y
  {
    if y < top then top else if y >= top + maxY then top + maxY - 1 else y
  }

  /** The row padyinrange as written moves pady to. */
  function YInRangeAsWritten(y: int, top: int, maxY: int): (r: int)
    ensures maxY >= 0 && y == top + maxY ==> r == y
  {
    if y < top then top else if y > top + maxY then top + maxY - 1 else y
  }

  /** padyinrange: pull pady into the window, then clip padx to its line. */
  function PadYInRange(p: Pad, lines: seq<string>, maxY: int): (r: Pad)
    requires 0 <= YInRange(p.y, p.top, maxY) < |lines|
    ensures r.top == p.top && r.y == YInRange(p.y, p.top, maxY)
    ensures r.x <= LastCol(lines[r.y]) && (p.x <= LastCol(lines[r.y]) ==> r.x == p.x)
  {
    ClipX(p.(y := YInRange(p.y, p.top, maxY)), lines)
  }

  /** padyinrange as written. */
  function PadYInRangeAsWritten(p: Pad, lines: seq<string>, maxY: int): (r: Pad)
    requires 0 <= YInRangeAsWritten(p.y, p.top, maxY) < |lines|
    ensures r.top == p.top && r.y == YInRangeAsWritten(p.y, p.top, maxY)
  {
    ClipX(p.(y := YInRangeAsWritten(p.y, p.top, maxY)), lines)
  }

  /** The new padtop of a page or half-page scroll, before pady is pulled in. */
  function ScrolledTop(top: int, s: Scroll, n: int, maxY: int): (t: int)
    requires s.PageUp? || s.PageDown? || s.HalfUp? || s.HalfDown?
    requires maxY >= 1 && 0 <= top < n
    ensures 0 <= t < n
    ensures s.PageUp? ==> t == Max(top - maxY, 0)
    ensures s.HalfUp? ==> t == Max(top - maxY / 2, 0)
    ensures s.PageDown? ==> t == Min(top + maxY, n - 1)
    ensures s.HalfDown? ==> t == Min(top + maxY / 2, n - 1)
  {
    match s
    case PageUp => if top - maxY < 0 then 0 else top - maxY
    case HalfUp => if top - maxY / 2 < 0 then 0 else top - maxY / 2
    case PageDown => if top + maxY > n - 1 then n - 1 else top + maxY
    case HalfDown => if top + maxY / 2 > n - 1 then n - 1 else top + maxY / 2
  }

  /**
   view_scroll's SINGLE_DOWN and SINGLE_UP: the window moves one line when it
   can, and the cursor is carried along only when it would leave the screen.
   */
  function ScrollLine(p: Pad, down: bool, lines: seq<string>, maxY: int): (r: (Pad, int))
    requires Valid(p, lines, maxY)
    ensures Valid(r.0, lines, maxY)
    ensures r.1 == 0 || r.1 == 1
    ensures r.1 == 0 ==> r.0 == p
    ensures down ==> (r.1 == 1 <==> p.top < |lines| - 1) && (r.1 == 1 ==> r.0.top == p.top + 1)
    ensures !down ==> (r.1 == 1 <==> p.top != 0) && (r.1 == 1 ==> r.0.top == p.top - 1)
    ensures down && r.1 == 1 ==> r.0.y == Max(p.y, p.top + 1)
    ensures !down && r.1 == 1 ==> r.0.y == Min(p.y, p.top - 1 + maxY - 1)
    ensures r.0.y != p.y ==> r.0.x <= LastCol(lines[r.0.y])
  {
    if down then
      if p.top < |lines| - 1 then
        var top := p.top + 1;
        if p.y <= top then (ClipX(Pad(p.x, top, top), lines), 1) else (p.(top := top), 1)
      else (p, 0)
    else
      if p.top != 0 then
        var top := p.top - 1;
        if p.y >= top + maxY then (ClipX(Pad(p.x, top + maxY - 1, top), lines), 1)
        else (p.(top := top), 1)
      else (p, 0)
  }

  /**
   view_scroll's page and half-page scrolls: padtop moves by MAX_Y or MAX_Y / 2
   within the buffer, and padyinrange pulls the cursor onto the screen.
   */
  function ScrollPage(p: Pad, s: Scroll, lines: seq<string>, maxY: int): (r: Pad)
    requires Valid(p, lines, maxY)
    requires s.PageUp? || s.PageDown? || s.HalfUp? || s.HalfDown?
    ensures Valid(r, lines, maxY)
    ensures r.top == ScrolledTop(p.top, s, |lines|, maxY)
    ensures r.y == YInRange(p.y, r.top, maxY)
    ensures r.y != p.y ==> r.x <= LastCol(lines[r.y])
  {
    PadYInRange(p.(top := ScrolledTop(p.top, s, |lines|, maxY)), lines, maxY)
  }

  /**
   view_scroll: the line scrolls act only when the window can move and pull
   the cursor along; the page and half-page scrolls clamp padtop into the
   buffer and pull the cursor into the window. The number returned is 1 when
   the view scrolled. The scroll requests of the other front end do nothing.
   */
  function ViewScroll(p: Pad, s: Scroll, lines: seq<string>, maxY: int): (r: (Pad, int))
    requires Valid(p, lines, maxY)
    ensures Valid(r.0, lines, maxY)
    ensures r.1 == 0 || r.1 == 1
    ensures r.1 == 0 ==> r.0 == p
    ensures s.SingleDown? ==> (r.1 == 1 <==> p.top < |lines| - 1) && (r.1 == 1 ==> r.0.top == p.top + 1)
    ensures s.SingleUp? ==> (r.1 == 1 <==> p.top != 0) && (r.1 == 1 ==> r.0.top == p.top - 1)
    ensures s.PageUp? || s.PageDown? || s.HalfUp? || s.HalfDown? ==>
      r.1 == 1 && r.0.top == ScrolledTop(p.top, s, |lines|, maxY)
    ensures s.CursorTop? || s.CursorBottom? || s.CursorMiddle? ==> r.1 == 0
    ensures r.0.y != p.y ==> r.0.x <= LastCol(lines[r.0.y])
    ensures s.SingleDown? && r.1 == 1 ==> r.0.y == Max(p.y, p.top + 1)
    ensures s.SingleUp? && r.1 == 1 ==> r.0.y == Min(p.y, p.top - 1 + maxY - 1)
    ensures s.PageUp? || s.PageDown? || s.HalfUp? || s.HalfDown? ==>
      r.0.y == YInRange(p.y, r.0.top, maxY)
  {
    if s.SingleDown? || s.SingleUp? then ScrollLine(p, s.SingleDown?, lines, maxY)
    else if s.PageUp? || s.PageDown? || s.HalfUp? || s.HalfDown? then (ScrollPage(p, s, lines, maxY), 1)
    else (p, 0)
  }

  /** view_scroll's page-up as written, through padyinrange as written. */
  function PageUpAsWritten(p: Pad, lines: seq<string>, maxY: int): (r: Pad)
    requires Valid(p, lines, maxY)
    ensures r.top == Max(p.top - maxY, 0)
  {
    var top := ScrolledTop(p.top, PageUp, |lines|, maxY);
    assert YInRangeAsWritten(p.y, top, maxY) <= p.y;
    PadYInRangeAsWritten(p.(top := top), lines, maxY)
  }

  /**
   A concrete input: ten screen rows, twenty lines, the cursor on the top
   row at line 10. Page-up as written moves the window to line 0 and leaves
   the cursor on line 10, one row below the last visible row (9); the
   corrected view pulls it onto row 9.
   */
  lemma PageUpLeavesCursorOffScreen(lines: seq<string>)
    requires |lines| == 20
    ensures Valid(Pad(0, 10, 10), lines, 10)
    ensures PageUpAsWritten(Pad(0, 10, 10), lines, 10) == Pad(0, 10, 0)
    ensures !OnScreen(10, 0, 10)
    ensures ViewScroll(Pad(0, 10, 10), PageUp, lines, 10).0 == Pad(0, 9, 0)
    ensures ClipYAsWritten(Pad(0, 10, 0), 10) == Pad(0, 10, 0)
    ensures ClipY(Pad(0, 10, 0), 10) == Pad(0, 10, 1)
  {
  }

  /** The directions of view_move, apart from the first-non-blank motion. */
  datatype Direction =
    | AbsoluteLeft | AbsoluteRight | AbsoluteUp | AbsoluteDown
    | Left | Right | Up | Down | Current
    | ScreenTop | ScreenMiddle | ScreenBottom

  /** The motions along the current line. */
  predicate Sideways(d: Direction)
  {
    d.AbsoluteLeft? || d.AbsoluteRight? || d.Left? || d.Right?
  }

  /** view_move's LEFT, RIGHT, ABSOLUTE_LEFT and ABSOLUTE_RIGHT: only padx changes. */
  function MoveSideways(p: Pad, d: Direction, lines: seq<string>, maxY: int): (r: (Pad, int))
    requires Valid(p, lines, maxY) && Sideways(d)
    ensures Valid(r.0, lines, maxY)
    ensures r.0.y == p.y && r.0.top == p.top
    ensures r.1 == 0 || r.1 == 1
    ensures d.Left? ==> (r.1 == 1 <==> r.0.x != p.x) && (r.1 == 1 ==> r.0.x == p.x - 1)
    ensures d.Right? ==>
      && (r.1 == 1 <==> r.0.x != p.x)
      && (r.1 == 1 ==> r.0.x == p.x + 1)
      && r.0.x <= Max(p.x, LastCol(lines[p.y]))
    ensures d.AbsoluteLeft? ==> r.0.x == 0
    ensures d.AbsoluteRight? ==> r.0.x == LastCol(lines[p.y])
  {
    var xlim := LastCol(lines[p.y]);
    match d
    case AbsoluteLeft => (p.(x := 0), 1)
    case AbsoluteRight => (p.(x := xlim), 1)
    case Left => if p.x > 0 then (p.(x := p.x - 1), 1) else (p, 0)
    case Right => if p.x < xlim then (p.(x := p.x + 1), 1) else (p, 0)
  }

  /** view_move's UP and DOWN: one line, with the window following and padx clipped to the new line. */
  function MoveVertically(p: Pad, down: bool, lines: seq<string>, maxY: int): (r: (Pad, int))
    requires Valid(p, lines, maxY)
    ensures Valid(r.0, lines, maxY)
    ensures r.1 == 0 || r.1 == 1
    ensures !down ==> (r.1 == 1 <==> p.y > 0) && (r.1 == 1 ==> r.0.y == p.y - 1)
    ensures down ==> (r.1 == 1 <==> p.y < |lines| - 1) && (r.1 == 1 ==> r.0.y == p.y + 1)
    ensures r.1 == 0 ==> r.0 == p
    ensures r.1 == 1 ==> r.0.x <= LastCol(lines[r.0.y])
  {
    if !down then
      if p.y > 0 then
        var y := p.y - 1;
        (ClipX(Pad(p.x, y, if p.top > y then y else p.top), lines), 1)
      else (p, 0)
    else
      if p.y < |lines| - 1 then
        var y := p.y + 1;
        (ClipX(Pad(p.x, y, if y >= p.top + maxY then y - maxY + 1 else p.top), lines), 1)
      else (p, 0)
  }

  /** view_move's jumps: to the first or last line of the buffer or of the screen, or to the current line. */
  function MoveJump(p: Pad, d: Direction, lines: seq<string>, maxY: int): (r: (Pad, int))
    requires Valid(p, lines, maxY) && !Sideways(d) && !d.Up? && !d.Down?
    ensures Valid(r.0, lines, maxY)
    ensures r.1 == 0 || r.1 == 1
    ensures d.AbsoluteDown? || d.Current? || d.ScreenMiddle? || d.ScreenBottom? ==>
      r.0.x <= LastCol(lines[r.0.y])
    ensures d.AbsoluteUp? ==> r.0.y == 0 && r.0.top == 0
    ensures d.AbsoluteDown? ==> r.0.y == |lines| - 1
    ensures d.ScreenTop? ==> r.0.y == p.top
    ensures d.ScreenBottom? ==> r.0.y == Min(p.top + maxY - 1, |lines| - 1)
    ensures d.Current? ==> r.1 == 0 && r.0.y == p.y && r.0.top == p.top
  {
    var ylim := |lines| - 1;
    var bottom := Min(p.top + maxY - 1, ylim);
    match d
    case AbsoluteUp => (Pad(p.x, 0, 0), 1)
    case AbsoluteDown =>
      var top := if ylim >= p.top + maxY then Max(ylim - maxY + 1, 0) else p.top;
      (ClipX(Pad(p.x, ylim, top), lines), 1)
    // CURRENT and the SCREEN_* jumps use the corrected clippady; on Valid
    // states its bound agrees with the `>` of view.c:526-532.
    case Current => (ClipX(ClipY(p, maxY), lines), 0)
    case ScreenMiddle =>
      var y := Max(p.top + (bottom - p.top) / 2, 0);
      (ClipX(ClipY(p.(y := y), maxY), lines), 1)
    case ScreenBottom => (ClipX(ClipY(p.(y := bottom), maxY), lines), 1)
    case ScreenTop => (p.(y := p.top), 1)
  }

  /**
   view_move: move the cursor in the pad and keep the window over it. The
   number returned is 1 when the motion acted.
   */
  function ViewMove(p: Pad, d: Direction, lines: seq<string>, maxY: int): (r: (Pad, int))
    requires Valid(p, lines, maxY)
    ensures Valid(r.0, lines, maxY)
    ensures r.1 == 0 || r.1 == 1
    ensures d.Left? ==> (r.1 == 1 <==> r.0.x != p.x) && (r.1 == 1 ==> r.0.x == p.x - 1)
    ensures d.Right? ==>
      && (r.1 == 1 <==> r.0.x != p.x)
      && (r.1 == 1 ==> r.0.x == p.x + 1)
      && r.0.x <= Max(p.x, LastCol(lines[p.y]))
    ensures d.Left? || d.Right? ==> r.0.y == p.y && r.0.top == p.top
    ensures d.Up? ==> (r.1 == 1 <==> p.y > 0) && (r.1 == 1 ==> r.0.y == p.y - 1)
    ensures d.Down? ==> (r.1 == 1 <==> p.y < |lines| - 1) && (r.1 == 1 ==> r.0.y == p.y + 1)
    ensures (d.Up? || d.Down?) && r.1 == 0 ==> r.0 == p
    ensures (d.Up? || d.Down?) && r.1 == 1 ==> r.0.x <= LastCol(lines[r.0.y])
    ensures d.AbsoluteDown? || d.Current? || d.ScreenMiddle? || d.ScreenBottom? ==>
      r.0.x <= LastCol(lines[r.0.y])
    ensures d.AbsoluteLeft? ==> r.0.x == 0
    ensures d.AbsoluteRight? ==> r.0.x == LastCol(lines[p.y])
    ensures d.AbsoluteUp? ==> r.0.y == 0 && r.0.top == 0
    ensures d.AbsoluteDown? ==> r.0.y == |lines| - 1
    ensures d.ScreenTop? ==> r.0.y == p.top
    ensures d.ScreenBottom? ==> r.0.y == Min(p.top + maxY - 1, |lines| - 1)
    ensures d.Current? ==> r.1 == 0 && r.0.y == p.y && r.0.top == p.top
  {
    if Sideways(d) then MoveSideways(p, d, lines, maxY)
    else if d.Up? || d.Down? then MoveVertically(p, d.Down?, lines, maxY)
    else MoveJump(p, d, lines, maxY)
  }

  /** Moving down then up returns the cursor to its line. */
  lemma DownThenUp(p: Pad, lines: seq<string>, maxY: int)
    requires Valid(p, lines, maxY) && p.y < |lines| - 1
    ensures ViewMove(ViewMove(p, Down, lines, maxY).0, Up, lines, maxY).0.y == p.y
  {
  }

  // ------------------------------------------------------------ columns

  /** The columns view_actualx counts for a character: tabstop for a tab, else 1. */
  function CharWidth(c: char, tabstop: int): int
  {
    if c == '\t' then tabstop else 1
  }

  /** Reference definition: the expanded width of a text, summed character by character. */
  function Expanded(s: string, tabstop: int): int
    decreases |s|
  {
    if |s| == 0 then 0 else Expanded(s[..|s| - 1], tabstop) + CharWidth(s[|s| - 1], tabstop)
  }

  /** Without tabs every character counts one column. */
  lemma {:induction false} ExpandedWithoutTabs(s: string, tabstop: int)
    requires '\t' !in s
    ensures Expanded(s, tabstop) == |s|
    decreases |s|
  {
    if |s| > 0 {
      var init := s[..|s| - 1];
      forall j | 0 <= j < |init|
        ensures init[j] != '\t'
      {
        assert init[j] == s[j];
        assert s[j] in s;
      }
      ExpandedWithoutTabs(init, tabstop);
      assert s[|s| - 1] in s;
    }
  }

  lemma ExpandedStep(s: string, i: nat, tabstop: int)
    requires i < |s|
    ensures Expanded(s[..i + 1], tabstop) == Expanded(s[..i], tabstop) + CharWidth(s[i], tabstop)
  {
    assert s[..i + 1][..i] == s[..i];
  }

  /** The loop of view_actualx, from character i with x characters still to pass. */
  function ActualXLoop(data: string, i: nat, x: int, acc: int, tabstop: int): int
    requires i <= |data|
    decreases |data| - i
  {
    if i < |data| && x > 0 then ActualXLoop(data, i + 1, x - 1, acc + CharWidth(data[i], tabstop), tabstop)
    else if i == |data| then Max(acc - 1, 0)
    else acc
  }

  /** The loop's result in closed form: the width of the characters it passed. */
  lemma {:induction false} ActualXLoopClosed(data: string, i: nat, x: int, acc: int, tabstop: int)
    requires i <= |data| && acc == Expanded(data[..i], tabstop)
    ensures var k := Min(i + Max(x, 0), |data|);
      ActualXLoop(data, i, x, acc, tabstop)
        == if k == |data| then Max(Expanded(data, tabstop) - 1, 0) else Expanded(data[..k], tabstop)
    decreases |data| - i
  {
    if i < |data| && x > 0 {
      ExpandedStep(data, i, tabstop);
      ActualXLoopClosed(data, i + 1, x - 1, acc + CharWidth(data[i], tabstop), tabstop);
    } else if i == |data| {
      assert data[..i] == data;
    }
  }

  /**
   view_actualx: the screen column of character x of line y, each tab
   counting tabstop columns. When the count reaches the end of the line it
   is one less, but never negative; without such a line, x itself.
   */
  function ActualX(lines: seq<string>, y: int, x: int, tabstop: int): (r: int)
    ensures !(0 <= y < |lines|) ==> r == x
    ensures 0 <= y < |lines| ==>
      var line := lines[y];
      var k := Prefix(line, x);
      r == if k == |line| then Max(Expanded(line, tabstop) - 1, 0) else Expanded(line[..k], tabstop)
  {
    if 0 <= y < |lines| then
      ActualXLoopClosed(lines[y], 0, x, 0, tabstop);
      assert lines[y][..0] == [];
      ActualXLoop(lines[y], 0, x, 0, tabstop)
    else x
  }

  /** The loop of view_getactualx: the leftover count is added at the end. */
  function GetActualXLoop(data: string, i: nat, x: int, acc: int, tabstop: int): int
    requires i <= |data|
    decreases |data| - i
  {
    if i < |data| && x > 0 then GetActualXLoop(data, i + 1, x - 1, acc + CharWidth(data[i], tabstop), tabstop)
    else acc + x
  }

  lemma {:induction false} GetActualXLoopClosed(data: string, i: nat, x: int, acc: int, tabstop: int)
    requires i <= |data| && acc == Expanded(data[..i], tabstop)
    ensures var k := Min(i + Max(x, 0), |data|);
      GetActualXLoop(data, i, x, acc, tabstop) == Expanded(data[..k], tabstop) + (x - (k - i))
    decreases |data| - i
  {
    if i < |data| && x > 0 {
      ExpandedStep(data, i, tabstop);
      GetActualXLoopClosed(data, i + 1, x - 1, acc + CharWidth(data[i], tabstop), tabstop);
    }
  }

  /**
   view_getactualx: the expanded width of the first min(x, length) characters
   of line y, plus whatever of x lies beyond the end of the line.
   */
  function GetActualX(lines: seq<string>, y: int, x: int, tabstop: int): (r: int)
    requires 0 <= y < |lines|
    ensures var k := Prefix(lines[y], x); r == Expanded(lines[y][..k], tabstop) + (x - k)
  {
    GetActualXLoopClosed(lines[y], 0, x, 0, tabstop);
    assert lines[y][..0] == [];
    GetActualXLoop(lines[y], 0, x, 0, tabstop)
  }

  /** Inside a line the two column functions agree. */
  lemma ActualXInsideLine(lines: seq<string>, y: int, x: int, tabstop: int)
    requires 0 <= y < |lines| && 0 <= x < |lines[y]|
    ensures ActualX(lines, y, x, tabstop) == GetActualX(lines, y, x, tabstop)
  {
  }

  /**
   On a line without tabs, view_actualx is the column itself inside the
   line and the last column at or past its end.
   */
  lemma ActualXWithoutTabs(lines: seq<string>, y: int, x: int, tabstop: int)
    requires 0 <= y < |lines| && '\t' !in lines[y] && x >= 0
    ensures ActualX(lines, y, x, tabstop) == Min(x, LastCol(lines[y]))
  {
    var line := lines[y];
    var k := Prefix(line, x);
    ExpandedWithoutTabs(line, tabstop);
    if k < |line| {
      assert '\t' !in line[..k] by {
        forall j | 0 <= j < k
          ensures line[..k][j] != '\t'
        {
          assert line[..k][j] == line[j];
          assert line[j] in line;
        }
      }
      ExpandedWithoutTabs(line[..k], tabstop);
    }
  }
}

=== FILE: setget.dfy ===
/**
 The `set`/`get` sub-parser (parse_setget in command.c). It receives the
 text after the three command letters and decides which action on the
 settings store the command asks for. The store itself (vars_get/vars_set)
 is outside the model: its table of names is a parameter, and the parser's
 answer is the action, not its effect.
 */
module SetGet {
  import opened Basics

  /** Whether a setting holds a flag or a number (vars_isbool). */
  datatype VarKind = FlagVar | NumberVar

  /** What the sub-parser asks of the settings store or reports. */
  datatype Action =
    | Malformed                         // wrongfunc()
    | UnknownVar                        // "unknown variable"
    | SetFlag(name: string, on: bool)   // vars_set with the flag value
    | NeedsNumber(name: string)         // set of a number setting without a value
    | Show(name: string)                // get of one setting
    | SetNumber(name: string, arg: string) // set with a value, handed to atoi
    | ShowNoValue(name: string)         // get followed by more text: shown through a message missing its arguments
    | DumpAll                           // bare "get": every setting listed

  /** End of the alphabetic run of `s` that begins at index 1: the first non-letter at or after index 2. */
  function WordEnd(s: string, from: nat): (e: nat)
    requires from <= |s|
    ensures from <= e <= |s|
    ensures forall j :: from <= j < e ==> IsAlpha(s[j])
    ensures e < |s| ==> !IsAlpha(s[e])
    decreases |s| - from
  {
    if from == |s| || !IsAlpha(s[from]) then from else WordEnd(s, from + 1)
  }

  predicate NoPrefixed(w: string)
  {
    |w| >= 2 && w[0] == 'n' && w[1] == 'o'
  }

  /** Whether the text after the command letters starts with a space and a letter: a setting is named. */
  predicate Names(s: string)
  {
    |s| >= 2 && s[0] == ' ' && IsAlpha(s[1])
  }

  /** The setting a named text refers to: its first word, with a leading "no" removed. */
  function NameOf(s: string): string
    requires Names(s)
  {
    var word := s[1..WordEnd(s, 2)];
    if NoPrefixed(word) then word[2..] else word
  }

  /**
   parse_setget: `s` is what follows "set" (isSet) or "get". The word after the
   space names the setting; a leading "no" is stripped and turns the flag off.
   */
  function Parse(isSet: bool, s: string, vars: map<string, VarKind>): (r: Action)
    ensures r.DumpAll? <==> !isSet && s == ""
    ensures |s| > 0 && s[0] != ' ' ==> r.Malformed?
    ensures r.SetFlag? ==> isSet && r.name in vars && vars[r.name] == FlagVar
    ensures r.NeedsNumber? ==> isSet && r.name in vars && vars[r.name] == NumberVar
    ensures r.SetNumber? ==> isSet && r.name in vars
    ensures r.Show? || r.ShowNoValue? ==> !isSet && r.name in vars
    ensures r.SetFlag? || r.NeedsNumber? || r.Show? ==>
      |s| >= 2 && s == " " + (if NoPrefixed(s[1..]) then "no" else "") + r.name
    ensures r.SetFlag? ==> r.on == !NoPrefixed(s[1..])
    ensures r.UnknownVar? <==> Names(s) && NameOf(s) !in vars
  {
    if |s| >= 2 && s[0] == ' ' && IsAlpha(s[1]) then
      var end := WordEnd(s, 2);
      var word := s[1..end];
      var off := NoPrefixed(word);
      var name := if off then word[2..] else word;
      if name !in vars then UnknownVar
      else if end == |s| then
        if !isSet then Show(name)
        else if vars[name].FlagVar? then SetFlag(name, !off)
        else NeedsNumber(name)
      else if s[end] == ' ' then
        if isSet then SetNumber(name, s[end + 1..]) else ShowNoValue(name)
      else Malformed
    else if s == "" && !isSet then DumpAll
    else Malformed
  }

  /** The command text that sets flag `name` on or off: " name" or " noname". */
  function FlagText(name: string, on: bool): string
  {
    " " + (if on then "" else "no") + name
  }

  predicate IsWord(w: string)
  {
    |w| > 0 && forall j :: 0 <= j < |w| ==> IsAlpha(w[j])
  }

  /**
   Round trip: the text FlagText builds parses back to the same flag setting,
   for every flag whose own name does not begin with "no".
   */
  lemma FlagTextParses(name: string, on: bool, vars: map<string, VarKind>)
    requires IsWord(name) && !NoPrefixed(name)
    requires name in vars && vars[name] == FlagVar
    ensures Parse(true, FlagText(name, on), vars) == SetFlag(name, on)
  {
    var s := FlagText(name, on);
    var word := s[1..];
    assert forall j :: 1 <= j < |s| ==> IsAlpha(s[j]) by {
      forall j | 1 <= j < |s|
        ensures IsAlpha(s[j])
      {
        if !on && j < 3 {
        } else {
          assert s[j] == name[j - (if on then 1 else 3)];
        }
      }
    }
    var end := WordEnd(s, 2);
    assert end == |s|;
    assert s[1..end] == word;
    if on {
      assert word == name;
    } else {
      assert s == " " + ("no" + name);
      assert word == "no" + name;
      assert NoPrefixed(word);
      assert word[2..] == name;
    }
  }

  /** The word scan stops exactly at the first non-letter after a run of letters. */
  lemma {:induction false} WordEndStops(s: string, from: nat, e: nat)
    requires from <= e <= |s|
    requires forall j :: from <= j < e ==> IsAlpha(s[j])
    requires e == |s| || !IsAlpha(s[e])
    ensures WordEnd(s, from) == e
    decreases e - from
  {
    if from < e {
      WordEndStops(s, from + 1, e);
    }
  }

  /** In " word rest", with rest empty or starting with a non-letter, the word is found whole. */
  lemma WordFound(w: string, rest: string)
    requires IsWord(w) && (|rest| == 0 || !IsAlpha(rest[0]))
    ensures var s := " " + w + rest;
      Names(s) && WordEnd(s, 2) == 1 + |w| && s[1..1 + |w|] == w
  {
    var s := " " + w + rest;
    forall j | 2 <= j < 1 + |w|
      ensures IsAlpha(s[j])
    {
      assert s[j] == w[j - 1];
    }
    if |rest| > 0 {
      assert s[1 + |w|] == rest[0];
    }
    assert s[1] == w[0];
    WordEndStops(s, 2, 1 + |w|);
  }

  /** Round trip: "get name" shows a known setting, and "get name value" shows the setting through a message whose arguments are missing. */
  lemma GetParses(name: string, arg: string, vars: map<string, VarKind>)
    requires IsWord(name) && !NoPrefixed(name) && name in vars
    ensures Parse(false, " " + name, vars) == Show(name)
    ensures Parse(false, " " + name + " " + arg, vars) == ShowNoValue(name)
  {
    WordFound(name, "");
    assert " " + name + "" == " " + name;
    WordFound(name, " " + arg);
    assert " " + name + (" " + arg) == " " + name + " " + arg;
    assert (" " + name + " " + arg)[1 + |name|] == ' ';
  }

  /** Round trip: "set name value" hands the value of a known setting to the store. */
  lemma SetNumberParses(name: string, arg: string, vars: map<string, VarKind>)
    requires IsWord(name) && !NoPrefixed(name) && name in vars
    ensures Parse(true, " " + name + " " + arg, vars) == SetNumber(name, arg)
  {
    var s := " " + name + " " + arg;
    WordFound(name, " " + arg);
    assert " " + name + (" " + arg) == s;
    assert s[1 + |name|] == ' ';
    assert s[1 + |name| + 1..] == arg;
  }

  /** A name missing from the table is reported unknown, by set and get alike. */
  lemma UnknownParses(isSet: bool, name: string, rest: string, vars: map<string, VarKind>)
    requires IsWord(name) && !NoPrefixed(name) && name !in vars
    requires |rest| == 0 || !IsAlpha(rest[0])
    ensures Parse(isSet, " " + name + rest, vars) == UnknownVar
  {
    WordFound(name, rest);
  }
}
